=== FILE: README.md ===
# pawsense behaviour core in Dafny

This project models the deterministic decision core of the pawsense
pose-to-behaviour pipeline. The pipeline turns per-frame dog pose detections
into a behaviour summary in three stages:

- **Feature extraction** (`feature_extraction.dfy`, module `FeatureExtraction`).
  A `FeatureExtractor` object keeps a bounded first-in-first-out window of
  normalised detections (24 keypoints and a bounding box each). For every
  detected frame it computes static features: leg and tail angles, paw
  distances, body length, head width and box size. It also computes motion
  features over the whole window: mean keypoint velocity, tail-angle
  standard deviation and oscillation count, centroid and paw vertical
  velocities, box-centre variance, and leg-angle variance and change rate.
  While fewer than two frames are buffered, only four motion keys are set,
  to 0.
- **Action classification** (`action_classification.dfy`, module
  `ActionClassification`). A first-match-wins chain of strict threshold
  tests: jumping, then rearing, then the motion state (idle, walking,
  running), then a pose when idle (sitting, standing, standing on two legs,
  lying), then a `_wagging` suffix on a recognised idle pose. The labels
  form a datatype `Action`, and `Name` maps each to its label string.
- **Behaviour aggregation** (`analyze_behavior.dfy`, module
  `AnalyzeBehavior`). `Analyze` runs a fresh extractor (window 60) and the
  classifier over a stream of frames. It debounces "running": a raw
  "running" is reported as running from the fifth consecutive raw running on
  (frames without a detection do not break the run), and as "walking" before
  that. It keeps one record per detected frame, cuts the
  records into a run-length-encoded timeline, and tabulates per-action
  statistics. The activity level of the report is a bucket of the walking
  plus running percentage.

`common.dfy` (module `Common`) holds the optional value, the point type and
the sum, mean, minimum and maximum of real sequences.

Two details follow the code exactly:

- Timeline `startFrame`/`endFrame` are positions in the record list. They
  are not the video frame index stored in each record's `frame`. The two
  differ as soon as a frame has no detection.
- The per-record wagging flag uses more than 10 oscillations. The
  classifier's wagging suffix uses more than 25.

The code raises no error for an empty stream, or for one without any
detection; it returns an empty record list, an empty timeline and empty
statistics.

Reals are exact in the model. The square root and arccos (in degrees) are
uninterpreted functions passed in a `Numerics` value. Everything else in the
feature arithmetic (means, variances, consecutive differences) is spelled
out.

## Model

| member | source | states |
|---|---|---|
| Common.SeqMin | src/pawsense_ai/analyze_behavior.py:85 | `np.min` of a non-empty list: one of its elements, and no larger than any of them |
| Common.SeqMax | src/pawsense_ai/analyze_behavior.py:85 | `np.max` of a non-empty list: one of its elements, and no smaller than any of them |
| Common.MeanBetweenMinAndMax | src/pawsense_ai/analyze_behavior.py:84-85 | the mean of a non-empty velocity list lies between its minimum and maximum |
| FeatureExtraction.Slide | src/pawsense_ai/feature_extraction.py:80-82 | one buffer step: append the new detection, then drop the oldest entry when the buffer exceeds the window size |
| FeatureExtraction.Replay | src/pawsense_ai/feature_extraction.py:80-82 | the buffer after feeding a sequence of detections to an empty buffer, one `Slide` per detection |
| FeatureExtraction.CentroidVerticalVelocity | src/pawsense_ai/feature_extraction.py:127-130 | mean of the consecutive differences of the box-centre y over the whole buffer |
| FeatureExtraction.FrontPawsVerticalVelocity | src/pawsense_ai/feature_extraction.py:135-138 | mean of the consecutive differences of the mean y of keypoints 0 and 6 over the whole buffer |
| FeatureExtraction.RearPawsVerticalVelocity | src/pawsense_ai/feature_extraction.py:136-139 | mean of the consecutive differences of the mean y of keypoints 3 and 9 over the whole buffer |
| FeatureExtraction.StepDistances | src/pawsense_ai/feature_extraction.py:104 | the displacement norm of each of the 24 keypoints between two consecutive buffered frames |
| FeatureExtraction.AvgVelocity | src/pawsense_ai/feature_extraction.py:104-106 | mean over all consecutive frame pairs and all 24 keypoints of the keypoint displacement norm |
| FeatureExtraction.Variance | src/pawsense_ai/feature_extraction.py:121 | population variance (mean squared deviation from the mean); the tail key is its square root, the box-centre and leg keys average it over columns |
| FeatureExtraction.LegChangeRate | src/pawsense_ai/feature_extraction.py:162-164 | mean absolute change of the four leg angles between consecutive frames |
| FeatureExtraction.MotionFrom | src/pawsense_ai/feature_extraction.py:97-164 | the nine motion keys from the buffer, its tail-angle series, its leg-angle rows and the peak count |
| FeatureExtraction.MotionOf | src/pawsense_ai/feature_extraction.py:97-164 | the motion keys of a whole buffer: `MotionFrom` over its own tail angles, leg angles and tail peak count |
| FeatureExtraction.WithMotion | src/pawsense_ai/feature_extraction.py:97-164 | the static features with all nine motion keys set |
| FeatureExtraction.ZeroFill | src/pawsense_ai/feature_extraction.py:87-92 | the static features with only avg_velocity, tail_angle_variance, centroid and front-paw vertical velocity set to 0 |
| FeatureExtraction.FrameFeatures | src/pawsense_ai/feature_extraction.py:84-94 | a frame's features: static plus `ZeroFill` below two buffered frames, static plus `MotionOf` of the buffer from two on |
| FeatureExtraction.ExtremaCount | src/pawsense_ai/feature_extraction.py:166-176 | the reference peak count: interior indices strictly above both neighbours or strictly below both |
| FeatureExtraction.Angle | src/pawsense_ai/feature_extraction.py:22-26 | `_compute_angle`: the angle in degrees at the middle point, arccos of the clipped cosine of the two difference vectors |
| FeatureExtraction.LegAngles | src/pawsense_ai/feature_extraction.py:39-42 | the four leg angles at the middle keypoint of the triples 0-1-2 (front left), 6-7-8 (front right), 3-4-5 (rear left) and 9-10-11 (rear right), in that order; the per-frame rows of lines 150-153 use the same triples |
| FeatureExtraction.TailAngle | src/pawsense_ai/feature_extraction.py:45 | the angle at the tail start (12) between the tail end (13) and the withers (22), as also recomputed per frame at line 116 |
| FeatureExtraction.CosineAt | src/pawsense_ai/feature_extraction.py:22-26 | the cosine handed to arccos is clipped into [-1, 1], whatever the points |
| FeatureExtraction.StaticFeatures | src/pawsense_ai/feature_extraction.py:28-57 | box width and height are copied from the normalised box, and no motion key is set by the static pass |
| FeatureExtraction.FrameFeaturesKeys | src/pawsense_ai/feature_extraction.py:85-92 | below two buffered frames exactly avg_velocity, tail_angle_variance, centroid and front-paw vertical velocity are 0 and the other five motion keys stay unset; from two frames on, all nine are set |
| FeatureExtraction.MeanDiffsTelescopes | src/pawsense_ai/feature_extraction.py:128-130 | the mean of the T-1 consecutive differences equals (last - first) / (T-1) |
| FeatureExtraction.CentroidVelocityTelescopes | src/pawsense_ai/feature_extraction.py:127-130 | the centroid vertical velocity depends only on the oldest and newest buffered box centre |
| FeatureExtraction.FrontPawVelocityTelescopes | src/pawsense_ai/feature_extraction.py:135-138 | the front-paw vertical velocity is (last - first) / (T-1) of the mean y of keypoints 0 and 6 |
| FeatureExtraction.RearPawVelocityTelescopes | src/pawsense_ai/feature_extraction.py:135-139 | the rear-paw vertical velocity is (last - first) / (T-1) of the mean y of keypoints 3 and 9 |
| FeatureExtraction.ExtremaCountBounds | src/pawsense_ai/feature_extraction.py:166-176 | the peak count is 0 below three values and at most n-2 otherwise |
| FeatureExtraction.PlateausHaveNoExtrema | src/pawsense_ai/feature_extraction.py:169-176 | values equal to a neighbour are never counted, so a constant or plateau sequence has no peaks |
| FeatureExtraction.ReplayKeepsLast | src/pawsense_ai/feature_extraction.py:80-82 | after n appends the window holds the last min(n, W) entries, in order |
| FeatureExtraction.SlideBounded | src/pawsense_ai/feature_extraction.py:80-82 | one append-then-pop never exceeds the window size and leaves the new entry last when W >= 1 |
| FeatureExtraction.FeatureExtractor.constructor | src/pawsense_ai/feature_extraction.py:60-62 | a new extractor has the given window size and an empty buffer |
| FeatureExtraction.FeatureExtractor.Update | src/pawsense_ai/feature_extraction.py:65-94 | no detection returns (None, None) and leaves the buffer unchanged; a detection slides into the buffer (append, drop the front on overflow), the buffer stays within the window size, and the features are the static ones plus the zero-fill or the motion features of the new buffer |
| FeatureExtraction.FeatureExtractor.ComputeMotionFeatures | src/pawsense_ai/feature_extraction.py:97-164 | the two per-frame angle loops and the peak count yield exactly the motion features of the whole buffer |
| FeatureExtraction.FeatureExtractor.TailAngleSeries | src/pawsense_ai/feature_extraction.py:112-118 | the per-frame loop yields the tail angle (keypoints 13, 12, 22) of every buffered frame, in buffer order |
| FeatureExtraction.FeatureExtractor.LegAngleSeries | src/pawsense_ai/feature_extraction.py:147-156 | the per-frame loop yields the four leg angles (front-left, front-right, rear-left, rear-right) of every buffered frame, in buffer order |
| FeatureExtraction.FeatureExtractor.CountPeaks | src/pawsense_ai/feature_extraction.py:166-176 | the loop counts exactly the interior indices that are strict maxima or strict minima, and 0 below three values |
| ActionClassification.PawHeightsOf | src/pawsense_ai/action_classification.py:34-35 | the y coordinates of the front-left (0), front-right (6), rear-left (3) and rear-right (9) keypoints |
| ActionClassification.FrontPawsY | src/pawsense_ai/action_classification.py:34 | mean y of the two front paws |
| ActionClassification.RearPawsY | src/pawsense_ai/action_classification.py:35 | mean y of the two rear paws |
| ActionClassification.PawHeightDiff | src/pawsense_ai/action_classification.py:38 | rear minus front mean paw y, positive when the rear paws are lower in the image |
| ActionClassification.Name | src/pawsense_ai/action_classification.py:76-86 | the label string of each action, with `_wagging` appended to a wagging pose's name |
| ActionClassification.HeightRatioAbove | src/pawsense_ai/action_classification.py:33 | the `height_ratio > t` test with the tensor division made explicit: a zero denominator reads as +inf for a positive height and fails otherwise |
| ActionClassification.IsTailWagging | src/pawsense_ai/action_classification.py:61-63 | tail variance > 9.0 and oscillation count > 25, with missing keys read as 0 |
| ActionClassification.PoseOf | src/pawsense_ai/action_classification.py:65-73 | the four pose tests in source order, first match wins, no match is the unknown pose |
| ActionClassification.Classify | src/pawsense_ai/action_classification.py:1-86 | `recognize_action`: unknown on absent input, then jumping, rearing, the motion state, and for an idle frame the pose with its wagging suffix, or idle |
| ActionClassification.NameInLabels | src/pawsense_ai/action_classification.py:76-86 | every label is one of the fourteen label strings |
| ActionClassification.NameInjective | src/pawsense_ai/action_classification.py:76-86 | different actions get different label strings |
| ActionClassification.MotionState | src/pawsense_ai/action_classification.py:48-57 | the motion state is always idle, walking or running |
| ActionClassification.UnknownIffAbsent | src/pawsense_ai/action_classification.py:7-8 | "unknown" is returned exactly when the features or the keypoints are absent |
| ActionClassification.JumpingIff | src/pawsense_ai/action_classification.py:41-42 | jumping iff centroid vertical velocity < -0.015 (missing reads 0), whatever else holds; exactly -0.015 is not jumping |
| ActionClassification.RearingIff | src/pawsense_ai/action_classification.py:44-46 | if not jumping: rearing iff front-paw velocity < -0.005 or the rear-minus-front paw height > 0.3 |
| ActionClassification.MovingLabels | src/pawsense_ai/action_classification.py:48-77 | past jump and rear, velocity > 0.15 with leg variance > 15 gives running, any other velocity > 0.05 gives walking, and slower frames are neither |
| ActionClassification.WaggingOnlyWhenIdlePose | src/pawsense_ai/action_classification.py:59-77 | a pose label (wagging or not) needs idle velocity and the matched pose |
| ActionClassification.PosePriority | src/pawsense_ai/action_classification.py:65-73 | first match wins: each pose is returned exactly when its own test holds and no earlier one does (sitting, standing, standing_on_two_legs with a front leg at most 80 degrees, lying) |
| ActionClassification.IdleHasNoSuffix | src/pawsense_ai/action_classification.py:48-81 | past jump and rear, a frame is "idle" exactly when its velocity is at most 0.05 and no pose matches, whatever the tail |
| ActionClassification.WaggingSuffixIff | src/pawsense_ai/action_classification.py:59-86 | past jump and rear, an idle-velocity frame with a matched pose is reported as that pose, with "_wagging" appended iff tail variance > 9.0 and oscillations > 25 |
| ActionClassification.FirstFrameIsStill | src/pawsense_ai/feature_extraction.py:88-92 | with fewer than two buffered frames the zero-filled keys rule out jumping, walking, running and wagging, and rearing can only come from the paw gap |
| AnalyzeBehavior.MakeRecord | src/pawsense_ai/analyze_behavior.py:35-44 | one frame record: index, label and the feature values read with default 0, the wagging flag being tail variance > 9.0 and oscillations > 10 |
| AnalyzeBehavior.DebounceStep | src/pawsense_ai/analyze_behavior.py:25-32 | one running-filter step: a raw running is appended to the history (kept to its last five) and reported as walking until five are held; any other label clears the history |
| AnalyzeBehavior.Pass | src/pawsense_ai/analyze_behavior.py:18-44 | the first loop as a fold over the extractor outputs: frames without features are skipped, each other frame is classified, debounced and recorded |
| AnalyzeBehavior.Smoothed | src/pawsense_ai/analyze_behavior.py:25-32 | the reference for the running filter, defined from the length of the trailing run of raw running labels |
| AnalyzeBehavior.Share | src/pawsense_ai/analyze_behavior.py:83-87 | a count as a percentage of a non-zero whole, `part / whole * 100`, before formatting |
| AnalyzeBehavior.StatsOf | src/pawsense_ai/analyze_behavior.py:77-88 | one statistics entry: frame count, share of records, mean, minimum and maximum velocity, wagging count and its share of the action's frames |
| AnalyzeBehavior.StatsTable | src/pawsense_ai/analyze_behavior.py:74-88 | one `StatsOf` entry for each action that occurs in the records |
| AnalyzeBehavior.ActivityBucket | src/pawsense_ai/analyze_behavior.py:163-169 | above 80 high, above 50 moderate, otherwise low |
| AnalyzeBehavior.MakeSegment | src/pawsense_ai/analyze_behavior.py:54-72 | one segment: action, start and end position, duration end-start+1 frames and that over 30 in seconds |
| AnalyzeBehavior.FramesWith | src/pawsense_ai/analyze_behavior.py:77 | the records carrying a given action, in order |
| AnalyzeBehavior.WaggingFrames | src/pawsense_ai/analyze_behavior.py:79 | the records whose wagging flag is set, in order |
| AnalyzeBehavior.PercentageOf | src/pawsense_ai/analyze_behavior.py:159-160 | the percentage stored for an action, 0 when the action has no entry |
| AnalyzeBehavior.ActivityLevelOf | src/pawsense_ai/analyze_behavior.py:159-169 | the activity bucket of the walking plus running percentages |
| AnalyzeBehavior.Observations | src/pawsense_ai/analyze_behavior.py:18-21 | the extractor yields one entry per frame, present exactly for the frames with a detection |
| AnalyzeBehavior.PassMatchesSmoothed | src/pawsense_ai/analyze_behavior.py:24-32 | the debounce loop emits the reference smoothed labels, and its history is the trailing run of raw running capped at five |
| AnalyzeBehavior.SmoothedRunningIff | src/pawsense_ai/analyze_behavior.py:25-32 | a frame is reported running iff it and the four frames before it were raw running; a raw running otherwise becomes walking, and other labels pass through |
| AnalyzeBehavior.HistoryBounded | src/pawsense_ai/analyze_behavior.py:26-28 | the running history never holds more than five entries, all "running" |
| AnalyzeBehavior.DebounceScenario | src/pawsense_ai/analyze_behavior.py:25-32 | five running, one walking, five running: only the fifth of each run of five is reported running |
| AnalyzeBehavior.RecordsFollowDetections | src/pawsense_ai/analyze_behavior.py:18-44 | one record per detected frame, in strictly increasing frame order, each built from its own frame's features with the > 9.0 and > 10 wagging flag |
| AnalyzeBehavior.SegmentTimeline | src/pawsense_ai/analyze_behavior.py:47-72 | the segments are the run-length encoding of the record labels: start at 0, end at n-1, contiguous, durations end-start+1 >= 1 (seconds = frames/30), adjacent actions differ, every record carries its segment's action |
| AnalyzeBehavior.DurationsCoverStream | src/pawsense_ai/analyze_behavior.py:54-72 | the segment durations add up to the number of records |
| AnalyzeBehavior.ExpandTimeline | src/pawsense_ai/analyze_behavior.py:47-72 | expanding the segments gives back the record labels |
| AnalyzeBehavior.FramesWithPresent | src/pawsense_ai/analyze_behavior.py:76-77 | an action gets a statistics key iff some record carries it |
| AnalyzeBehavior.ComputeStats | src/pawsense_ai/analyze_behavior.py:74-88 | the loop over the distinct actions builds exactly one entry per action that occurs |
| AnalyzeBehavior.StatsEntryMeaning | src/pawsense_ai/analyze_behavior.py:77-88 | each entry counts at least one frame, wagging frames never exceed it, its percentage is its share of the records, its wagging percentage is the wagging frames' share of its frames, and its average velocity lies between its minimum and maximum, which bound every frame of that action and are each the velocity of some frame of that action |
| AnalyzeBehavior.TotalsPartitionRecords | src/pawsense_ai/analyze_behavior.py:76-82 | the per-action frame counts add up to the number of records |
| AnalyzeBehavior.DebounceRunning | src/pawsense_ai/analyze_behavior.py:25-32 | the append, pop-front and relabel code performs exactly one step of the reference running debounce |
| AnalyzeBehavior.RecordFrames | src/pawsense_ai/analyze_behavior.py:9-44 | the frame loop (fresh 60-frame extractor, classifier, running debounce, record) produces exactly the reference records of the stream |
| AnalyzeBehavior.Analyze | src/pawsense_ai/analyze_behavior.py:91-105 | the summary holds the debounced records, their timeline, their statistics and a frame count with duration count/30 at 30 fps |
| AnalyzeBehavior.EmptyStreamEmptySummary | src/pawsense_ai/analyze_behavior.py:47-92 | a stream without detections gives no records, no segments and no statistics |
| AnalyzeBehavior.ActivityBucketMonotone | src/pawsense_ai/analyze_behavior.py:163-169 | a larger moving percentage never gives a lower activity level |
| AnalyzeBehavior.PercentageFromCount | src/pawsense_ai/analyze_behavior.py:159-160 | the percentage read for an action is its share of the records, 0 when it is absent |
| AnalyzeBehavior.ActivityLevelFromCounts | src/pawsense_ai/analyze_behavior.py:159-169 | the activity level is the bucket (> 80 high, > 50 moderate, else low) of the walking plus running share of the records |

## Left out

- Result normalisation (`_process_result`, src/pawsense_ai/feature_extraction.py:5-19) is not modelled. `Update` receives the normalised detection, or `None` when the pose model found no dog.
- The square root (norms, standard deviation) and arccos in degrees are uninterpreted parameters. Their float behaviour is not modelled.
- Floating point: the model computes with exact reals. The classifier's one division by a quantity that can be zero, `bbox_h / (bbox_w + 1e-6)`, is modelled in `HeightRatioAbove` including its zero-denominator case, which needs a negative box width. Other nan and inf cases are not modelled, such as those a zero-height box sends through the keypoint normalisation.
- String formatting is not modelled: the `.1f` and `.4f` percentage, velocity and duration strings, and the `"min - max"` velocity range. The model keeps the underlying reals and the pair of bounds. The activity bucket therefore reads the exact percentage, not the one-decimal rounded string.
- The report text of `get_prompt_data` is not modelled, apart from the activity bucket. This includes its reading of the first timeline segment, which has no entry for an empty summary.
- The order of the statistics keys (Python set iteration order) is not modelled; the statistics are a map.
- The unused `action_metadata` dictionary and the progress print are not modelled.
- The `__main__` block of analyze_behavior.py, main.py, end_to_end_pipeline.py, inference.py and llm_analyzer.py are not part of this model. They are I/O, HTTP, model inference and network calls.

=== FILE: action_classification.dfy ===
/** The per-frame action classifier: a first-match-wins chain of strict
    threshold tests over one frame's features and paw positions, producing
    one label of a closed set. */
module ActionClassification {
  import opened Common
  import opened FeatureExtraction

  // Thresholds
  const VelocityThresholdIdle: real := 0.05
  const VelocityThresholdWalk: real := 0.15
  const JumpVelocityThreshold: real := -0.015
  const RearFrontVelocityThreshold: real := -0.005
  const TailVarianceThreshold: real := 9.0
  const TailOscillationThreshold: int := 25
  const LegStrideThreshold: real := 15.0
  /** Rear paws this much lower than front paws (box-relative) means rearing. */
  const RearPawGapThreshold: real := 0.3
  const RatioEpsilon: real := 0.000001

  /** The only keypoint data the classifier reads: the y coordinate of the
      front-left (0), front-right (6), rear-left (3) and rear-right (9) paws. */
  datatype PawHeights = PawHeights(frontLeftY: real, frontRightY: real, rearLeftY: real, rearRightY: real)

  function PawHeightsOf(kpts: seq<Point>): PawHeights
    requires |kpts| == KeypointCount
  {
    PawHeights(kpts[0].y, kpts[6].y, kpts[3].y, kpts[9].y)
  }

  function FrontPawsY(k: PawHeights): real {
    (k.frontLeftY + k.frontRightY) / 2.0
  }

  function RearPawsY(k: PawHeights): real {
    (k.rearLeftY + k.rearRightY) / 2.0
  }

  /** Positive when the rear paws are lower in the image than the front paws. */
  function PawHeightDiff(k: PawHeights): real {
    RearPawsY(k) - FrontPawsY(k)
  }

  datatype Pose = Sitting | Standing | StandingOnTwoLegs | Lying

  /** The labels the classifier produces. `Idle`, `Walking` and `Running`
      double as the motion state; a recognised pose carries the wagging flag. */
  datatype Action =
    | Unknown
    | Jumping
    | Rearing
    | Idle
    | Walking
    | Running
    | Posed(pose: Pose, wagging: bool)

  function PoseName(p: Pose): string {
    match p
    case Sitting => "sitting"
    case Standing => "standing"
    case StandingOnTwoLegs => "standing_on_two_legs"
    case Lying => "lying"
  }

  /** The label string of an action; a wagging pose gets the "_wagging" suffix. */
  function Name(a: Action): string {
    match a
    case Unknown => "unknown"
    case Jumping => "jumping"
    case Rearing => "rearing"
    case Idle => "idle"
    case Walking => "walking"
    case Running => "running"
    case Posed(p, w) => if w then PoseName(p) + "_wagging" else PoseName(p)
  }

  /** The closed label set. */
  const Labels: set<string> := {
    "unknown", "jumping", "rearing", "walking", "running", "idle",
    "sitting", "standing", "standing_on_two_legs", "lying",
    "sitting_wagging", "standing_wagging", "standing_on_two_legs_wagging", "lying_wagging"
  }

  /** Every action is named by a label of the closed set. */
  lemma NameInLabels(a: Action)
    ensures Name(a) in Labels
  {
    if a.Posed? && a.wagging {
      match a.pose
      case Sitting => assert Name(a) == "sitting_wagging";
      case Standing => assert Name(a) == "standing_wagging";
      case StandingOnTwoLegs => assert Name(a) == "standing_on_two_legs_wagging";
      case Lying => assert Name(a) == "lying_wagging";
    }
  }

  /** Different actions have different labels, so comparing actions is the
      same as comparing the label strings. */
  lemma NameInjective(a: Action, b: Action)
    ensures Name(a) == Name(b) <==> a == b
  {
    if Name(a) == Name(b) {
      var s := Name(a);
      assert |Name(b)| == |s|;
      assert Name(b)[0] == s[0];
      if |s| > 3 {
        assert Name(b)[1] == s[1];
        assert Name(b)[3] == s[3];
      }
    }
  }

  /** `bbox_h / (bbox_w + 1e-6) > t` as the tensor arithmetic evaluates it: a
      zero denominator gives +inf for a positive height (above any t), and nan
      or -inf otherwise (above nothing). */
  predicate HeightRatioAbove(h: real, w: real, t: real) {
    var den := w + RatioEpsilon;
    if den == 0.0 then h > 0.0 else h / den > t
  }

  /** Locomotion state from the mean keypoint velocity and the leg-angle
      variance; missing keys read as 0. */
  function MotionState(f: Features): (m: Action)
    ensures m == Idle || m == Walking || m == Running
  {
    var avgVel := f.avgVelocity.GetOr(0.0);
    var legStrideVar := f.legAngleVariance.GetOr(0.0);
    if avgVel > VelocityThresholdIdle then
      if avgVel > VelocityThresholdWalk && legStrideVar > LegStrideThreshold then Running else Walking
    else Idle
  }

  /** The static pose, tried in the order sitting, standing,
      standing_on_two_legs, lying; `None` is the "unknown" pose. */
  function PoseOf(f: Features, k: PawHeights): Option<Pose> {
    var fl, fr := f.frontLeftLegAngle, f.frontRightLegAngle;
    var rl, rr := f.rearLeftLegAngle, f.rearRightLegAngle;
    if (rl < 70.0 || rr < 70.0) && fl > 60.0 && fr > 60.0 then Some(Sitting)
    else if rl > 80.0 && rr > 80.0 && fl > 80.0 && fr > 80.0 then Some(Standing)
    else if rl > 80.0 && rr > 80.0 && RearPawsY(k) + Abs(FrontPawsY(k)) > 0.6
            && HeightRatioAbove(f.bboxHeight, f.bboxWidth, 1.5) then Some(StandingOnTwoLegs)
    else if rl < 40.0 && rr < 40.0 && fl < 50.0 && fr < 50.0 then Some(Lying)
    else None
  }

  /** Tail wagging needs both a large tail-angle deviation and many oscillations. */
  predicate IsTailWagging(f: Features) {
    f.tailAngleVariance.GetOr(0.0) > TailVarianceThreshold
    && f.tailOscillationCount.GetOr(0) > TailOscillationThreshold
  }

  /** One frame's label. Absent features or keypoints give `Unknown`. */
  function Classify(features: Option<Features>, paws: Option<PawHeights>): Action {
    if features.None? || paws.None? then Unknown
    else
      var f, k := features.value, paws.value;
      if f.centroidVerticalVelocity.GetOr(0.0) < JumpVelocityThreshold then Jumping
      else if f.frontPawsVerticalVelocity.GetOr(0.0) < RearFrontVelocityThreshold
              || PawHeightDiff(k) > RearPawGapThreshold then Rearing
      else
        var motion := MotionState(f);
        if motion != Idle then motion
        else
          match PoseOf(f, k)
          case None => Idle
          case Some(p) => Posed(p, IsTailWagging(f))
  }

  // ---------------------------------------------------------------------
  // Properties of the decision chain

  /** `Unknown` is returned exactly when an input is absent. */
  lemma UnknownIffAbsent(features: Option<Features>, paws: Option<PawHeights>)
    ensures Classify(features, paws) == Unknown <==> features.None? || paws.None?
  {
  }

  /** Jumping wins over everything, and the threshold is strict. */
  lemma JumpingIff(f: Features, k: PawHeights)
    ensures Classify(Some(f), Some(k)) == Jumping
        <==> f.centroidVerticalVelocity.GetOr(0.0) < JumpVelocityThreshold
    ensures f.centroidVerticalVelocity == Some(JumpVelocityThreshold)
        ==> Classify(Some(f), Some(k)) != Jumping
  {
  }

  /** Short of jumping, rearing is detected by either the front-paw velocity
      or the paw height gap; either suffices. */
  lemma RearingIff(f: Features, k: PawHeights)
    requires f.centroidVerticalVelocity.GetOr(0.0) >= JumpVelocityThreshold
    ensures Classify(Some(f), Some(k)) == Rearing
        <==> f.frontPawsVerticalVelocity.GetOr(0.0) < RearFrontVelocityThreshold
             || PawHeightDiff(k) > RearPawGapThreshold
  {
  }

  /** Neither jumping nor rearing: the velocity thresholds decide, and a
      moving label never carries the wagging suffix. */
  lemma MovingLabels(f: Features, k: PawHeights)
    requires f.centroidVerticalVelocity.GetOr(0.0) >= JumpVelocityThreshold
    requires f.frontPawsVerticalVelocity.GetOr(0.0) >= RearFrontVelocityThreshold
    requires PawHeightDiff(k) <= RearPawGapThreshold
    ensures var v, s, r := f.avgVelocity.GetOr(0.0), f.legAngleVariance.GetOr(0.0), Classify(Some(f), Some(k));
      && (v > VelocityThresholdWalk && s > LegStrideThreshold ==> r == Running)
      && (v > VelocityThresholdIdle && !(v > VelocityThresholdWalk && s > LegStrideThreshold) ==> r == Walking)
      && (v <= VelocityThresholdIdle ==> r != Walking && r != Running)
  {
  }

  /** The classifier only ever yields `Running` or `Walking` bare: a wagging
      label needs an idle frame with a recognised pose. */
  lemma WaggingOnlyWhenIdlePose(f: Features, k: PawHeights)
    ensures Classify(Some(f), Some(k)).Posed? ==>
      && f.avgVelocity.GetOr(0.0) <= VelocityThresholdIdle
      && PoseOf(f, k) == Some(Classify(Some(f), Some(k)).pose)
  {
  }

  /** The poses are tried in order, first match wins: each pose is returned
      exactly when its own test holds and no earlier test does. Sitting and
      lying exclude each other and the standing tests by their angle bounds;
      standing_on_two_legs is what is left of the rear-legs-straight case
      once the standing test failed on a front leg. */
  lemma PosePriority(f: Features, k: PawHeights)
    ensures var fl, fr, rl, rr := f.frontLeftLegAngle, f.frontRightLegAngle, f.rearLeftLegAngle, f.rearRightLegAngle;
      && (PoseOf(f, k) == Some(Sitting) <==> (rl < 70.0 || rr < 70.0) && fl > 60.0 && fr > 60.0)
      && (PoseOf(f, k) == Some(Standing) <==> rl > 80.0 && rr > 80.0 && fl > 80.0 && fr > 80.0)
      && (PoseOf(f, k) == Some(StandingOnTwoLegs) <==>
            && rl > 80.0 && rr > 80.0 && (fl <= 80.0 || fr <= 80.0)
            && RearPawsY(k) + Abs(FrontPawsY(k)) > 0.6
            && HeightRatioAbove(f.bboxHeight, f.bboxWidth, 1.5))
      && (PoseOf(f, k) == Some(Lying) <==> rl < 40.0 && rr < 40.0 && fl < 50.0 && fr < 50.0)
  {
  }

  /** Past jump and rear, a frame is "idle" exactly when it moves at idle
      velocity and matches no pose, wagging or not. */
  lemma IdleHasNoSuffix(f: Features, k: PawHeights)
    requires f.centroidVerticalVelocity.GetOr(0.0) >= JumpVelocityThreshold
    requires f.frontPawsVerticalVelocity.GetOr(0.0) >= RearFrontVelocityThreshold
    requires PawHeightDiff(k) <= RearPawGapThreshold
    ensures Classify(Some(f), Some(k)) == Idle
        <==> f.avgVelocity.GetOr(0.0) <= VelocityThresholdIdle && PoseOf(f, k).None?
    ensures Classify(Some(f), Some(k)) == Idle ==> Name(Classify(Some(f), Some(k))) == "idle"
  {
  }

  /** An idle frame with a recognised pose is reported as that pose, with the
      "_wagging" suffix iff BOTH tail conditions hold. */
  lemma WaggingSuffixIff(f: Features, k: PawHeights)
    requires f.centroidVerticalVelocity.GetOr(0.0) >= JumpVelocityThreshold
    requires f.frontPawsVerticalVelocity.GetOr(0.0) >= RearFrontVelocityThreshold
    requires PawHeightDiff(k) <= RearPawGapThreshold
    requires f.avgVelocity.GetOr(0.0) <= VelocityThresholdIdle
    requires PoseOf(f, k).Some?
    ensures var r, p := Classify(Some(f), Some(k)), PoseOf(f, k).value;
      && r == Posed(p, IsTailWagging(f))
      && (r.wagging <==> f.tailAngleVariance.GetOr(0.0) > TailVarianceThreshold
                         && f.tailOscillationCount.GetOr(0) > TailOscillationThreshold)
      && Name(r) == if r.wagging then PoseName(p) + "_wagging" else PoseName(p)
  {
  }

  /** On the first buffered frame the zero-filled motion keys rule out
      jumping, walking, running and wagging: only rearing by paw gap, a bare
      pose, or idle remain. */
  lemma FirstFrameIsStill(num: Numerics, d: Detection, buf: seq<Detection>)
    requires WellFormed(d) && AllWellFormed(buf) && |buf| < 2
    ensures var r := Classify(Some(FrameFeatures(num, d, buf)), Some(PawHeightsOf(d.kpts)));
      && r != Jumping && r != Walking && r != Running
      && (r.Posed? ==> !r.wagging)
      && (r == Rearing ==> PawHeightDiff(PawHeightsOf(d.kpts)) > RearPawGapThreshold)
  {
  }
}

=== FILE: analyze_behavior.dfy ===
/** The behaviour aggregator: runs the extractor and the classifier over a
    stream of detections, debounces "running", cuts the smoothed labels into
    segments and tabulates per-action statistics. */
module AnalyzeBehavior {
  import opened Common
  import opened FeatureExtraction
  import opened ActionClassification

  /** Consecutive raw "running" frames needed before "running" is reported. */
  const MotionBufferSize: nat := 5
  /** Frame rate assumed when converting frame counts to seconds. */
  const Fps: nat := 30
  /** Window size of the extractor the aggregator creates. */
  const AnalysisWindowSize: int := 60
  /** The per-record wagging flag uses its own oscillation threshold (10),
      lower than the classifier's (25). */
  const RecordWagVarianceThreshold: real := 9.0
  const RecordWagOscillationThreshold: int := 10

  // ---------------------------------------------------------------------
  // Extraction over the stream

  predicate DetectionsWellFormed(results: seq<Option<Detection>>) {
    forall i :: 0 <= i < |results| && results[i].Some? ==> WellFormed(results[i].value)
  }

  /** The detected frames of a stream, in order. */
  function Detections(results: seq<Option<Detection>>): (ds: seq<Detection>)
    requires DetectionsWellFormed(results)
    ensures AllWellFormed(ds)
    decreases |results|
  {
    if results == [] then []
    else
      var init := Detections(results[..|results| - 1]);
      match results[|results| - 1]
      case None => init
      case Some(d) => init + [d]
  }

  lemma {:induction false} ReplayWellFormed(entries: seq<Detection>, windowSize: int)
    requires AllWellFormed(entries)
    ensures AllWellFormed(Replay(entries, windowSize))
  {
    ReplayKeepsLast(entries, windowSize);
  }

  /** What the extractor hands the classifier for one frame. */
  datatype Observation = Observation(features: Features, paws: PawHeights)

  /** The extractor's output for the last frame of `results`: `None` without
      a detection, otherwise the features computed with the window holding
      the detections seen so far. */
  function LastObservation(num: Numerics, results: seq<Option<Detection>>): (o: Option<Observation>)
    requires results != [] && DetectionsWellFormed(results)
    ensures o.Some? <==> results[|results| - 1].Some?
  {
    match results[|results| - 1]
    case None => None
    case Some(d) =>
      var window := Replay(Detections(results), AnalysisWindowSize);
      ReplayWellFormed(Detections(results), AnalysisWindowSize);
      Some(Observation(FrameFeatures(num, d, window), PawHeightsOf(d.kpts)))
  }

  lemma PrefixWellFormed(results: seq<Option<Detection>>, n: nat)
    requires DetectionsWellFormed(results) && n <= |results|
    ensures DetectionsWellFormed(results[..n])
  {
    assert forall i :: 0 <= i < n ==> results[..n][i] == results[i];
  }

  /** The extractor's output for every frame of the stream. */
  function Observations(num: Numerics, results: seq<Option<Detection>>): (obs: seq<Option<Observation>>)
    requires DetectionsWellFormed(results)
    ensures |obs| == |results|
    ensures forall i :: 0 <= i < |results| ==> (obs[i].Some? <==> results[i].Some?)
    decreases |results|
  {
    if results == [] then []
    else
      var init := results[..|results| - 1];
      PrefixWellFormed(results, |results| - 1);
      Observations(num, init) + [LastObservation(num, results)]
  }

  // ---------------------------------------------------------------------
  // Frame records and the running debounce

  datatype FrameRecord = FrameRecord(
    frame: nat,
    action: Action,
    velocity: real,
    tailVariance: real,
    isTailWagging: bool,
    centroidVerticalVelocity: real,
    legAngleVariance: real)

  /** The record stored for a detected frame; missing keys read as 0. */
  function MakeRecord(frame: nat, action: Action, f: Features): FrameRecord {
    FrameRecord(
      frame, action,
      f.avgVelocity.GetOr(0.0),
      f.tailAngleVariance.GetOr(0.0),
      f.tailAngleVariance.GetOr(0.0) > RecordWagVarianceThreshold
        && f.tailOscillationCount.GetOr(0) > RecordWagOscillationThreshold,
      f.centroidVerticalVelocity.GetOr(0.0),
      f.legAngleVariance.GetOr(0.0))
  }

  datatype Debounced = Debounced(action: Action, history: seq<Action>)

  /** One step of the debounce: a raw "running" joins the history (oldest
      dropped beyond five) and is reported as "walking" until the history is
      full; any other label clears the history and passes through. */
  function DebounceStep(history: seq<Action>, raw: Action): Debounced {
    if raw == Running then
      var h := history + [Running];
      var h' := if |h| > MotionBufferSize then h[1..] else h;
      Debounced(if |h'| < MotionBufferSize then Walking else Running, h')
    else Debounced(raw, [])
  }

  datatype PassState = PassState(history: seq<Action>, records: seq<FrameRecord>)

  /** The first loop of the aggregator over the extractor's output. */
  function Pass(obs: seq<Option<Observation>>): PassState
    decreases |obs|
  {
    if obs == [] then PassState([], [])
    else
      var init := obs[..|obs| - 1];
      var s := Pass(init);
      match obs[|obs| - 1]
      case None => s
      case Some(o) =>
        var step := DebounceStep(s.history, Classify(Some(o.features), Some(o.paws)));
        PassState(step.history, s.records + [MakeRecord(|init|, step.action, o.features)])
  }

  /** Raw classifier labels of the detected frames, in order. */
  function RawActions(obs: seq<Option<Observation>>): seq<Action>
    decreases |obs|
  {
    if obs == [] then []
    else
      var init := RawActions(obs[..|obs| - 1]);
      match obs[|obs| - 1]
      case None => init
      case Some(o) => init + [Classify(Some(o.features), Some(o.paws))]
  }

  /** Number of raw "running" labels ending the sequence. */
  function TrailingRunning(raws: seq<Action>): nat
    decreases |raws|
  {
    if raws == [] || raws[|raws| - 1] != Running then 0
    else 1 + TrailingRunning(raws[..|raws| - 1])
  }

  /** The label reported for a raw label that ends a run of `run` raw
      "running" labels: "running" survives only from the fifth on. */
  function SmoothedLabel(raw: Action, run: nat): Action {
    if raw != Running then raw
    else if run >= MotionBufferSize then Running
    else Walking
  }

  /** Reference definition of the debounced labels: each raw label is
      relabelled by the run of raw "running" it ends. */
  function Smoothed(raws: seq<Action>): (out: seq<Action>)
    ensures |out| == |raws|
    decreases |raws|
  {
    if raws == [] then []
    else Smoothed(raws[..|raws| - 1]) + [SmoothedLabel(raws[|raws| - 1], TrailingRunning(raws))]
  }

  /** Frame `j` of the reference depends only on the raw labels up to `j`. */
  lemma {:induction false} SmoothedAt(raws: seq<Action>, j: nat)
    requires j < |raws|
    ensures Smoothed(raws)[j] == SmoothedLabel(raws[j], TrailingRunning(raws[..j + 1]))
    decreases |raws|
  {
    var init := raws[..|raws| - 1];
    if j < |raws| - 1 {
      SmoothedAt(init, j);
      assert init[..j + 1] == raws[..j + 1];
    } else {
      assert raws[..j + 1] == raws;
    }
  }

  function RunningHistory(n: nat): (h: seq<Action>)
    ensures |h| == n
  {
    seq(n, _ => Running)
  }

  /** One debounce step on a history of `min(t, 5)` "running" entries, where
      `t` is the trailing run so far. */
  lemma DebounceStepOnRun(t: nat, raw: Action)
    ensures var run := if raw == Running then t + 1 else 0;
      var step := DebounceStep(RunningHistory(Min(t, MotionBufferSize)), raw);
      && step.history == RunningHistory(Min(run, MotionBufferSize))
      && step.action == SmoothedLabel(raw, run)
  {
    var h := RunningHistory(Min(t, MotionBufferSize)) + [Running];
    if raw == Running {
      if |h| > MotionBufferSize {
        assert h[1..] == RunningHistory(MotionBufferSize);
      } else {
        assert h == RunningHistory(t + 1);
      }
    }
  }

  /** The debounce loop computes the reference labels, and its history is
      exactly the trailing run of raw "running", capped at five. */
  lemma {:induction false} PassMatchesSmoothed(obs: seq<Option<Observation>>)
    ensures var s, raws := Pass(obs), RawActions(obs);
      && |s.records| == |raws|
      && s.history == RunningHistory(Min(TrailingRunning(raws), MotionBufferSize))
      && forall j :: 0 <= j < |raws| ==> s.records[j].action == Smoothed(raws)[j]
    decreases |obs|
  {
    if obs != [] {
      var init := obs[..|obs| - 1];
      PassMatchesSmoothed(init);
      var raws0 := RawActions(init);
      match obs[|obs| - 1]
      case None =>
      case Some(o) =>
        var r := Classify(Some(o.features), Some(o.paws));
        assert (raws0 + [r])[..|raws0|] == raws0;
        DebounceStepOnRun(TrailingRunning(raws0), r);
    }
  }

  lemma {:induction false} TrailingRunningAtLeast(raws: seq<Action>, m: nat)
    ensures TrailingRunning(raws) >= m
        <==> m <= |raws| && forall k :: |raws| - m <= k < |raws| ==> raws[k] == Running
    decreases |raws|
  {
    if raws != [] && m > 0 {
      var init := raws[..|raws| - 1];
      TrailingRunningAtLeast(init, m - 1);
      if raws[|raws| - 1] == Running && TrailingRunning(raws) >= m {
        assert forall k :: |raws| - m <= k < |raws| - 1 ==> init[k] == raws[k];
      }
      if m <= |raws| && forall k :: |raws| - m <= k < |raws| ==> raws[k] == Running {
        assert forall k :: |init| - (m - 1) <= k < |init| ==> init[k] == raws[k];
      }
    }
  }

  /** A frame is reported "running" iff it and the four frames before it were
      all raw "running"; any other raw label passes through unchanged. */
  lemma SmoothedRunningIff(raws: seq<Action>, j: nat)
    requires j < |raws|
    ensures Smoothed(raws)[j] == Running
        <==> j >= MotionBufferSize - 1 && forall k :: j - (MotionBufferSize - 1) <= k <= j ==> raws[k] == Running
    ensures raws[j] != Running ==> Smoothed(raws)[j] == raws[j]
    ensures raws[j] == Running ==> Smoothed(raws)[j] in {Running, Walking}
  {
    SmoothedAt(raws, j);
    RunEndingAt(raws, j);
  }

  /** The run of raw "running" ending at frame `j` reaches five iff frames
      j-4 .. j are all raw "running". */
  lemma RunEndingAt(raws: seq<Action>, j: nat)
    requires j < |raws|
    ensures TrailingRunning(raws[..j + 1]) >= MotionBufferSize
        <==> j >= MotionBufferSize - 1 && forall k :: j - (MotionBufferSize - 1) <= k <= j ==> raws[k] == Running
  {
    var p := raws[..j + 1];
    TrailingRunningAtLeast(p, MotionBufferSize);
    assert forall k :: 0 <= k <= j ==> p[k] == raws[k];
  }

  /** The debounce history never holds more than five entries. */
  lemma HistoryBounded(obs: seq<Option<Observation>>)
    ensures |Pass(obs).history| <= MotionBufferSize
    ensures forall k :: 0 <= k < |Pass(obs).history| ==> Pass(obs).history[k] == Running
  {
    PassMatchesSmoothed(obs);
  }

  /** A burst of five raw "running", one "walking", five more: the fifth of
      each burst is the only frame reported as "running". */
  lemma DebounceScenario()
    ensures Smoothed([Running, Running, Running, Running, Running, Walking,
                      Running, Running, Running, Running, Running])
         == [Walking, Walking, Walking, Walking, Running, Walking,
             Walking, Walking, Walking, Walking, Running]
  {
    var raws := [Running, Running, Running, Running, Running, Walking,
                 Running, Running, Running, Running, Running];
    forall j | 0 <= j < |raws|
      ensures Smoothed(raws)[j] == (if j == 4 || j == 10 then Running else Walking)
    {
      SmoothedRunningIff(raws, j);
      assert raws[5] == Walking;
    }
  }

  function NumDetected(obs: seq<Option<Observation>>): nat
    decreases |obs|
  {
    if obs == [] then 0
    else NumDetected(obs[..|obs| - 1]) + (if obs[|obs| - 1].Some? then 1 else 0)
  }

  /** One record per detected frame, in frame order, each carrying its
      original frame index and the features of that frame. */
  lemma {:induction false} RecordsFollowDetections(obs: seq<Option<Observation>>)
    ensures var rs := Pass(obs).records;
      && |rs| == NumDetected(obs)
      && (forall j :: 0 <= j < |rs| ==> rs[j].frame < |obs| && obs[rs[j].frame].Some?)
      && (forall j :: 0 <= j < |rs| ==>
            rs[j] == MakeRecord(rs[j].frame, rs[j].action, obs[rs[j].frame].value.features))
      && (forall j, k :: 0 <= j < k < |rs| ==> rs[j].frame < rs[k].frame)
    decreases |obs|
  {
    if obs != [] {
      var init := obs[..|obs| - 1];
      RecordsFollowDetections(init);
      var rs0 := Pass(init).records;
      assert forall j :: 0 <= j < |rs0| ==> obs[rs0[j].frame] == init[rs0[j].frame];
    }
  }

  // ---------------------------------------------------------------------
  // Segments

  datatype Segment = Segment(action: Action, startFrame: int, endFrame: int, durationFrames: int, durationSeconds: real)

  function MakeSegment(a: Action, start: int, end: int): Segment {
    Segment(a, start, end, end - start + 1, (end - start + 1) as real / Fps as real)
  }

  function ActionsOf(records: seq<FrameRecord>): (acts: seq<Action>)
    ensures |acts| == |records|
  {
    seq(|records|, i requires 0 <= i < |records| => records[i].action)
  }

  /** The segment lies within `actions` and every position carries its action. */
  predicate SegmentLabels(s: Segment, actions: seq<Action>) {
    && 0 <= s.startFrame
    && s.endFrame < |actions|
    && forall k :: s.startFrame <= k <= s.endFrame ==> actions[k] == s.action
  }

  predicate WellShaped(s: Segment) {
    && s.durationFrames == s.endFrame - s.startFrame + 1
    && s.durationFrames >= 1
    && s.durationSeconds == s.durationFrames as real / Fps as real
  }

  /** `segs` is the run-length encoding of `actions[..n]`: it starts at 0,
      ends at n-1, each segment starts right after the previous one ends,
      adjacent segments differ, and every position carries its segment's action. */
  predicate IsTimelineOf(segs: seq<Segment>, actions: seq<Action>, n: int) {
    && 0 <= n <= |actions|
    && (segs == [] <==> n == 0)
    && (segs != [] ==> segs[0].startFrame == 0 && segs[|segs| - 1].endFrame == n - 1)
    && (forall i :: 0 <= i < |segs| ==> WellShaped(segs[i]) && SegmentLabels(segs[i], actions))
    && (forall i :: 0 < i < |segs| ==> segs[i].startFrame == segs[i - 1].endFrame + 1)
    && (forall i :: 0 < i < |segs| ==> segs[i].action != segs[i - 1].action)
  }

  predicate IsTimeline(segs: seq<Segment>, actions: seq<Action>) {
    IsTimelineOf(segs, actions, |actions|)
  }

  /** Appending a segment for the next run of equal labels keeps the encoding. */
  lemma TimelineExtend(segs: seq<Segment>, actions: seq<Action>, start: int, end: int, a: Action)
    requires IsTimelineOf(segs, actions, start)
    requires 0 <= start <= end < |actions|
    requires forall k :: start <= k <= end ==> actions[k] == a
    requires segs != [] ==> segs[|segs| - 1].action != a
    ensures IsTimelineOf(segs + [MakeSegment(a, start, end)], actions, end + 1)
  {
  }

  /** State of the segmentation loop after the first `i` records: the closed
      segments encode `actions[..segmentStart]` and the open run starting at
      `segmentStart` carries `current`. */
  ghost predicate SegmentLoopInv(segs: seq<Segment>, actions: seq<Action>, current: Option<Action>,
                                 segmentStart: int, i: int)
  {
    && 0 <= i <= |actions|
    && (i == 0 <==> current.None?)
    && (i == 0 ==> segs == [] && segmentStart == 0)
    && (i > 0 ==>
          && 0 <= segmentStart < i
          && current == Some(actions[segmentStart])
          && (forall k :: segmentStart <= k < i ==> actions[k] == current.value)
          && IsTimelineOf(segs, actions, segmentStart)
          && (segs != [] ==> segs[|segs| - 1].action != current.value))
  }

  /** The next label continues the open run. */
  lemma SegmentLoopExtendRun(segs: seq<Segment>, actions: seq<Action>, current: Option<Action>,
                             segmentStart: int, i: int)
    requires SegmentLoopInv(segs, actions, current, segmentStart, i) && i < |actions|
    requires current == Some(actions[i])
    ensures SegmentLoopInv(segs, actions, current, segmentStart, i + 1)
  {
  }

  /** The first label opens the first run. */
  lemma SegmentLoopOpen(actions: seq<Action>)
    requires 0 < |actions|
    ensures SegmentLoopInv([], actions, Some(actions[0]), 0, 1)
  {
  }

  /** A different label closes the open run as a segment and opens a new one. */
  lemma SegmentLoopClose(segs: seq<Segment>, actions: seq<Action>, current: Option<Action>,
                         segmentStart: int, i: int)
    requires SegmentLoopInv(segs, actions, current, segmentStart, i) && i < |actions|
    requires current.Some? && current != Some(actions[i])
    ensures SegmentLoopInv(segs + [MakeSegment(current.value, segmentStart, i - 1)], actions, Some(actions[i]), i, i + 1)
  {
    TimelineExtend(segs, actions, segmentStart, i - 1, current.value);
  }

  lemma SegmentLoopEnd(segs: seq<Segment>, actions: seq<Action>, current: Option<Action>, segmentStart: int)
    requires SegmentLoopInv(segs, actions, current, segmentStart, |actions|)
    ensures current.None? ==> IsTimeline(segs, actions)
    ensures current.Some? ==> IsTimeline(segs + [MakeSegment(current.value, segmentStart, |actions| - 1)], actions)
  {
    if current.Some? {
      TimelineExtend(segs, actions, segmentStart, |actions| - 1, current.value);
    }
  }

  /** The second loop of the aggregator: closes a segment whenever the label
      changes, and the last one at the end of the stream. */
  method SegmentTimeline(records: seq<FrameRecord>) returns (segs: seq<Segment>)
    ensures IsTimeline(segs, ActionsOf(records))
  {
    ghost var actions := ActionsOf(records);
    segs := [];
    var current: Option<Action> := None;
    var segmentStart := 0;
    for i := 0 to |records|
      invariant SegmentLoopInv(segs, actions, current, segmentStart, i)
    {
      if current != Some(records[i].action) {
        if current.Some? {
          SegmentLoopClose(segs, actions, current, segmentStart, i);
          segs := segs + [MakeSegment(current.value, segmentStart, i - 1)];
        } else {
          SegmentLoopOpen(actions);
        }
        current := Some(records[i].action);
        segmentStart := i;
      } else {
        SegmentLoopExtendRun(segs, actions, current, segmentStart, i);
      }
    }
    SegmentLoopEnd(segs, actions, current, segmentStart);
    if current.Some? {
      segs := segs + [MakeSegment(current.value, segmentStart, |records| - 1)];
    }
  }

  /** Dropping the last segment leaves an encoding of the labels before it. */
  lemma TimelinePrefix(segs: seq<Segment>, actions: seq<Action>, n: int)
    requires IsTimelineOf(segs, actions, n) && segs != []
    ensures var last := segs[|segs| - 1];
      && 0 <= last.startFrame <= last.endFrame == n - 1
      && IsTimelineOf(segs[..|segs| - 1], actions, last.startFrame)
  {
    var init := segs[..|segs| - 1];
    var last := segs[|segs| - 1];
    assert WellShaped(last) && SegmentLabels(last, actions);
    if |segs| > 1 {
      var prev := segs[|segs| - 2];
      assert WellShaped(prev) && SegmentLabels(prev, actions);
      assert last.startFrame == prev.endFrame + 1;
      assert init[|init| - 1] == prev;
    }
    assert forall i :: 0 <= i < |init| ==> init[i] == segs[i];
  }

  function SumDurations(segs: seq<Segment>): int
    decreases |segs|
  {
    if segs == [] then 0 else SumDurations(segs[..|segs| - 1]) + segs[|segs| - 1].durationFrames
  }

  /** The segment durations add up to the number of records. */
  lemma {:induction false} DurationsCoverStream(segs: seq<Segment>, actions: seq<Action>, n: int)
    requires IsTimelineOf(segs, actions, n)
    ensures SumDurations(segs) == n
    decreases |segs|
  {
    if segs != [] {
      var init := segs[..|segs| - 1];
      var last := segs[|segs| - 1];
      TimelinePrefix(segs, actions, n);
      DurationsCoverStream(init, actions, last.startFrame);
    }
  }

  function Expand(segs: seq<Segment>): seq<Action>
    decreases |segs|
  {
    if segs == [] then []
    else
      var s := segs[|segs| - 1];
      Expand(segs[..|segs| - 1]) + seq(if s.durationFrames < 0 then 0 else s.durationFrames, _ => s.action)
  }

  /** Decoding the run-length encoding gives the labels back. */
  lemma {:induction false} ExpandTimeline(segs: seq<Segment>, actions: seq<Action>, n: int)
    requires IsTimelineOf(segs, actions, n)
    ensures Expand(segs) == actions[..n]
    decreases |segs|
  {
    if segs != [] {
      var init := segs[..|segs| - 1];
      var last := segs[|segs| - 1];
      TimelinePrefix(segs, actions, n);
      ExpandTimeline(init, actions, last.startFrame);
      assert actions[..n] == actions[..last.startFrame] + actions[last.startFrame..n];
    }
  }

  // ---------------------------------------------------------------------
  // Per-action statistics

  datatype ActionStats = ActionStats(
    totalFrames: nat,
    percentage: real,
    avgVelocity: real,
    minVelocity: real,
    maxVelocity: real,
    tailWaggingFrames: nat,
    tailWaggingPercentage: real)

  /** The records carrying action `a`, in order. */
  function FramesWith(records: seq<FrameRecord>, a: Action): (rs: seq<FrameRecord>)
    ensures |rs| <= |records|
    ensures forall i :: 0 <= i < |rs| ==> rs[i].action == a
    decreases |records|
  {
    if records == [] then []
    else
      var init := FramesWith(records[..|records| - 1], a);
      if records[|records| - 1].action == a then init + [records[|records| - 1]] else init
  }

  /** The records flagged as tail wagging, in order. */
  function WaggingFrames(records: seq<FrameRecord>): (rs: seq<FrameRecord>)
    ensures |rs| <= |records|
    ensures forall i :: 0 <= i < |rs| ==> rs[i].isTailWagging
    decreases |records|
  {
    if records == [] then []
    else
      var init := WaggingFrames(records[..|records| - 1]);
      if records[|records| - 1].isTailWagging then init + [records[|records| - 1]] else init
  }

  function Velocities(records: seq<FrameRecord>): (vs: seq<real>)
    ensures |vs| == |records|
  {
    seq(|records|, i requires 0 <= i < |records| => records[i].velocity)
  }

  function ActionSet(records: seq<FrameRecord>): set<Action> {
    set i | 0 <= i < |records| :: records[i].action
  }

  lemma {:induction false} FramesWithPresent(records: seq<FrameRecord>, a: Action)
    ensures a in ActionSet(records) <==> |FramesWith(records, a)| > 0
    decreases |records|
  {
    if records != [] {
      var init := records[..|records| - 1];
      FramesWithPresent(init, a);
      assert ActionSet(records) == ActionSet(init) + {records[|records| - 1].action};
    }
  }

  /** `part` as a percentage of `whole`. */
  function Share(part: nat, whole: nat): real
    requires whole > 0
  {
    part as real / whole as real * 100.0
  }

  /** The statistics entry of an action present in the records. */
  function StatsOf(records: seq<FrameRecord>, a: Action): ActionStats
    requires a in ActionSet(records)
  {
    FramesWithPresent(records, a);
    var actionFrames := FramesWith(records, a);
    var velocities := Velocities(actionFrames);
    var tailWags := WaggingFrames(actionFrames);
    ActionStats(
      |actionFrames|,
      Share(|actionFrames|, |records|),
      Mean(velocities), SeqMin(velocities), SeqMax(velocities),
      |tailWags|,
      Share(|tailWags|, |actionFrames|))
  }

  function StatsTable(records: seq<FrameRecord>): map<Action, ActionStats> {
    map a | a in ActionSet(records) :: StatsOf(records, a)
  }

  /** The third loop of the aggregator: one entry per distinct action. */
  method ComputeStats(records: seq<FrameRecord>) returns (stats: map<Action, ActionStats>)
    ensures stats == StatsTable(records)
  {
    stats := map[];
    var remaining := set i | 0 <= i < |records| :: records[i].action;
    while remaining != {}
      invariant remaining <= ActionSet(records)
      invariant stats.Keys == ActionSet(records) - remaining
      invariant forall a :: a in stats ==> stats[a] == StatsOf(records, a)
      decreases remaining
    {
      var actionType :| actionType in remaining;
      FramesWithPresent(records, actionType);
      var actionFrames := FramesWith(records, actionType);
      var velocities := Velocities(actionFrames);
      var tailWags := WaggingFrames(actionFrames);
      stats := stats[actionType := ActionStats(
        |actionFrames|,
        Share(|actionFrames|, |records|),
        Mean(velocities), SeqMin(velocities), SeqMax(velocities),
        |tailWags|,
        Share(|tailWags|, |actionFrames|))];
      remaining := remaining - {actionType};
    }
  }

  /** What an entry means: at least one frame, wagging frames among them, the
      share of the stream, the wagging share of the action's frames, and a
      mean velocity between the smallest and the largest velocity of the
      action's frames, both of which are some frame's velocity. */
  lemma StatsEntryMeaning(records: seq<FrameRecord>, a: Action)
    requires a in ActionSet(records)
    ensures var s := StatsOf(records, a);
      && 1 <= s.totalFrames <= |records|
      && s.tailWaggingFrames <= s.totalFrames
      && s.percentage == Share(s.totalFrames, |records|)
      && s.minVelocity <= s.avgVelocity <= s.maxVelocity
      && (forall i :: 0 <= i < |records| && records[i].action == a
            ==> s.minVelocity <= records[i].velocity <= s.maxVelocity)
      && (exists i :: 0 <= i < |records| && records[i].action == a && records[i].velocity == s.minVelocity)
      && (exists i :: 0 <= i < |records| && records[i].action == a && records[i].velocity == s.maxVelocity)
      && s.tailWaggingPercentage == Share(s.tailWaggingFrames, s.totalFrames)
  {
    FramesWithPresent(records, a);
    var frames := FramesWith(records, a);
    var vs := Velocities(frames);
    MeanBetweenMinAndMax(vs);
    forall i | 0 <= i < |records| && records[i].action == a
      ensures records[i].velocity in vs
    {
      FramesWithContains(records, a, i);
    }
    FramesWithFromRecords(records, a);
    var lo :| 0 <= lo < |vs| && vs[lo] == SeqMin(vs);
    assert frames[lo] in frames;
    var iLo :| 0 <= iLo < |records| && records[iLo] == frames[lo];
    var hi :| 0 <= hi < |vs| && vs[hi] == SeqMax(vs);
    assert frames[hi] in frames;
    var iHi :| 0 <= iHi < |records| && records[iHi] == frames[hi];
  }

  /** Every selected record is one of the input records. */
  lemma {:induction false} FramesWithFromRecords(records: seq<FrameRecord>, a: Action)
    ensures forall r :: r in FramesWith(records, a) ==> r in records
    decreases |records|
  {
    if records != [] {
      var init := records[..|records| - 1];
      FramesWithFromRecords(init, a);
      forall r | r in init ensures r in records {
        var i :| 0 <= i < |init| && init[i] == r;
        assert records[i] == r;
      }
    }
  }

  lemma {:induction false} FramesWithContains(records: seq<FrameRecord>, a: Action, i: nat)
    requires i < |records| && records[i].action == a
    ensures records[i].velocity in Velocities(FramesWith(records, a))
    decreases |records|
  {
    var init := records[..|records| - 1];
    var rs0 := FramesWith(init, a);
    var last := records[|records| - 1];
    if i < |records| - 1 {
      FramesWithContains(init, a, i);
      assert init[i] == records[i];
    }
    if last.action == a {
      assert Velocities(rs0 + [last]) == Velocities(rs0) + [last.velocity];
    }
  }

  /** Number of records whose action lies in `s`. */
  function CountIn(records: seq<FrameRecord>, s: set<Action>): nat
    decreases |records|
  {
    if records == [] then 0
    else CountIn(records[..|records| - 1], s) + (if records[|records| - 1].action in s then 1 else 0)
  }

  lemma {:induction false} CountInSplit(records: seq<FrameRecord>, s: set<Action>, a: Action)
    requires a in s
    ensures CountIn(records, s) == CountIn(records, s - {a}) + |FramesWith(records, a)|
    decreases |records|
  {
    if records != [] {
      CountInSplit(records[..|records| - 1], s, a);
    }
  }

  lemma {:induction false} CountInAll(records: seq<FrameRecord>)
    ensures CountIn(records, ActionSet(records)) == |records|
  {
    CountInCovering(records, ActionSet(records));
  }

  lemma {:induction false} CountInCovering(records: seq<FrameRecord>, s: set<Action>)
    requires forall i :: 0 <= i < |records| ==> records[i].action in s
    ensures CountIn(records, s) == |records|
    decreases |records|
  {
    if records != [] {
      CountInCovering(records[..|records| - 1], s);
    }
  }

  ghost function Pick(s: set<Action>): Action
    requires s != {}
  {
    var a :| a in s; a
  }

  /** Sum of `totalFrames` over the keys in `keys`. */
  ghost function SumTotals(stats: map<Action, ActionStats>, keys: set<Action>): int
    requires keys <= stats.Keys
    decreases keys
  {
    if keys == {} then 0
    else
      var a := Pick(keys);
      stats[a].totalFrames + SumTotals(stats, keys - {a})
  }

  lemma {:induction false} SumTotalsCounts(records: seq<FrameRecord>, keys: set<Action>)
    requires keys <= ActionSet(records)
    ensures SumTotals(StatsTable(records), keys) == CountIn(records, keys)
    decreases keys
  {
    if keys == {} {
      CountInCovering([], keys);
      assert CountIn(records, {}) == 0 by { CountInEmpty(records); }
    } else {
      var a := Pick(keys);
      SumTotalsCounts(records, keys - {a});
      CountInSplit(records, keys, a);
    }
  }

  lemma {:induction false} CountInEmpty(records: seq<FrameRecord>)
    ensures CountIn(records, {}) == 0
    decreases |records|
  {
    if records != [] {
      CountInEmpty(records[..|records| - 1]);
    }
  }

  /** The per-action frame counts partition the records. */
  lemma TotalsPartitionRecords(records: seq<FrameRecord>)
    ensures SumTotals(StatsTable(records), StatsTable(records).Keys) == |records|
  {
    assert StatsTable(records).Keys == ActionSet(records);
    SumTotalsCounts(records, ActionSet(records));
    CountInAll(records);
  }

  // ---------------------------------------------------------------------
  // The summary

  datatype VideoInfo = VideoInfo(totalFrames: nat, durationSeconds: real, estimatedFps: nat)

  datatype BehaviorSummary = BehaviorSummary(
    videoInfo: VideoInfo,
    actionStatistics: map<Action, ActionStats>,
    actionTimeline: seq<Segment>,
    frameByFrameData: seq<FrameRecord>)

  /** Feeding one more frame to the extractor: the window slides (for a
      detection) and one more observation is produced. */
  lemma ExtractionStep(num: Numerics, results: seq<Option<Detection>>, idx: nat)
    requires DetectionsWellFormed(results) && idx < |results|
    ensures DetectionsWellFormed(results[..idx]) && DetectionsWellFormed(results[..idx + 1])
    ensures results[idx].None? ==>
      && Detections(results[..idx + 1]) == Detections(results[..idx])
      && Observations(num, results[..idx + 1]) == Observations(num, results[..idx]) + [None]
    ensures results[idx].Some? ==>
      var d, window := results[idx].value, Replay(Detections(results[..idx + 1]), AnalysisWindowSize);
      && WellFormed(d)
      && window == Slide(Replay(Detections(results[..idx]), AnalysisWindowSize), d, AnalysisWindowSize)
      && AllWellFormed(window)
      && Observations(num, results[..idx + 1])
         == Observations(num, results[..idx]) + [Some(Observation(FrameFeatures(num, d, window), PawHeightsOf(d.kpts)))]
  {
    PrefixWellFormed(results, idx);
    PrefixWellFormed(results, idx + 1);
    var next := results[..idx + 1];
    assert next[..idx] == results[..idx];
    assert next[idx] == results[idx];
    if results[idx].Some? {
      var ds := Detections(next);
      assert ds[..|ds| - 1] == Detections(results[..idx]);
      ReplayWellFormed(ds, AnalysisWindowSize);
    }
  }

  /** Appending one observation to the first loop's input. */
  lemma PassAppend(obs: seq<Option<Observation>>, x: Option<Observation>)
    ensures x.None? ==> Pass(obs + [x]) == Pass(obs)
    ensures x.Some? ==>
      var s := Pass(obs);
      var step := DebounceStep(s.history, Classify(Some(x.value.features), Some(x.value.paws)));
      Pass(obs + [x]) == PassState(step.history, s.records + [MakeRecord(|obs|, step.action, x.value.features)])
  {
    assert (obs + [x])[..|obs|] == obs;
  }

  /** The running filter of the first loop: the same step as `DebounceStep`. */
  method DebounceRunning(history: seq<Action>, raw: Action) returns (action: Action, motionHistory: seq<Action>)
    ensures Debounced(action, motionHistory) == DebounceStep(history, raw)
  {
    action := raw;
    motionHistory := history;
    if action == Running {
      motionHistory := motionHistory + [Running];
      if |motionHistory| > MotionBufferSize {
        motionHistory := motionHistory[1..];
      }
      if |motionHistory| < MotionBufferSize {
        action := Walking;
      }
    } else {
      motionHistory := [];
    }
  }

  /** The first loop of the aggregator: feeds every frame to a fresh
      extractor (window 60), classifies each detected frame, debounces
      "running" and records the frame. */
  method RecordFrames(num: Numerics, results: seq<Option<Detection>>) returns (frameActions: seq<FrameRecord>)
    requires DetectionsWellFormed(results)
    ensures frameActions == Pass(Observations(num, results)).records
  {
    var extractor := new FeatureExtractor(AnalysisWindowSize, num);
    var motionHistory: seq<Action> := [];
    frameActions := [];
    PrefixWellFormed(results, 0);
    for idx := 0 to |results|
      invariant DetectionsWellFormed(results[..idx])
      invariant extractor.Valid()
      invariant extractor.windowSize == AnalysisWindowSize && extractor.num == num
      invariant extractor.historyBuffer == Replay(Detections(results[..idx]), AnalysisWindowSize)
      invariant PassState(motionHistory, frameActions) == Pass(Observations(num, results[..idx]))
    {
      ExtractionStep(num, results, idx);
      ghost var obs := Observations(num, results[..idx]);
      var features, kpts := extractor.Update(results[idx]);
      if features.Some? {
        var action := Classify(features, Some(PawHeightsOf(kpts.value)));
        action, motionHistory := DebounceRunning(motionHistory, action);
        frameActions := frameActions + [MakeRecord(idx, action, features.value)];
        PassAppend(obs, Some(Observation(features.value, PawHeightsOf(kpts.value))));
      } else {
        PassAppend(obs, None);
      }
    }
    assert results[..|results|] == results;
  }

  /** The whole aggregation: extract, classify and debounce each frame, then
      segment and tabulate. An empty or detection-free stream yields an empty
      summary, not an error. */
  method Analyze(num: Numerics, results: seq<Option<Detection>>) returns (summary: BehaviorSummary)
    requires DetectionsWellFormed(results)
    ensures summary.frameByFrameData == Pass(Observations(num, results)).records
    ensures IsTimeline(summary.actionTimeline, ActionsOf(summary.frameByFrameData))
    ensures summary.actionStatistics == StatsTable(summary.frameByFrameData)
    ensures summary.videoInfo.totalFrames == |summary.frameByFrameData|
    ensures summary.videoInfo.durationSeconds == |summary.frameByFrameData| as real / Fps as real
    ensures summary.videoInfo.estimatedFps == Fps
  {
    var frameActions := RecordFrames(num, results);
    var segments := SegmentTimeline(frameActions);
    var stats := ComputeStats(frameActions);
    var totalFrames := |frameActions|;
    summary := BehaviorSummary(
      VideoInfo(totalFrames, totalFrames as real / Fps as real, Fps),
      stats, segments, frameActions);
  }

  /** A stream without detections produces no records, no segments and no
      statistics. */
  lemma EmptyStreamEmptySummary(obs: seq<Option<Observation>>, segs: seq<Segment>)
    requires forall i :: 0 <= i < |obs| ==> obs[i].None?
    requires IsTimeline(segs, ActionsOf(Pass(obs).records))
    ensures Pass(obs).records == []
    ensures segs == []
    ensures StatsTable(Pass(obs).records) == map[]
  {
    RecordsFollowDetections(obs);
  }

  // ---------------------------------------------------------------------
  // Activity level of the report

  datatype ActivityLevel = Low | Moderate | High

  /** Bucket of the combined walking + running percentage. */
  function ActivityBucket(movingPercentage: real): ActivityLevel {
    if movingPercentage > 80.0 then High
    else if movingPercentage > 50.0 then Moderate
    else Low
  }

  function Rank(level: ActivityLevel): nat {
    match level
    case Low => 0
    case Moderate => 1
    case High => 2
  }

  /** More movement never gives a lower activity level. */
  lemma ActivityBucketMonotone(x: real, y: real)
    requires x <= y
    ensures Rank(ActivityBucket(x)) <= Rank(ActivityBucket(y))
  {
  }

  /** Percentage of an action in the statistics, 0 when it does not occur. */
  function PercentageOf(stats: map<Action, ActionStats>, a: Action): real {
    if a in stats then stats[a].percentage else 0.0
  }

  function ActivityLevelOf(stats: map<Action, ActionStats>): ActivityLevel {
    ActivityBucket(PercentageOf(stats, Walking) + PercentageOf(stats, Running))
  }

  /** The activity level is the bucket of the share of walking and running
      records in the whole stream. */
  lemma ActivityLevelFromCounts(records: seq<FrameRecord>)
    requires records != []
    ensures ActivityLevelOf(StatsTable(records))
         == ActivityBucket(Share(|FramesWith(records, Walking)| + |FramesWith(records, Running)|, |records|))
  {
    PercentageFromCount(records, Walking);
    PercentageFromCount(records, Running);
    SharesAdd(|FramesWith(records, Walking)|, |FramesWith(records, Running)|, |records|);
  }

  /** The percentage read for an action, present or not, is its share of records. */
  lemma PercentageFromCount(records: seq<FrameRecord>, a: Action)
    requires records != []
    ensures PercentageOf(StatsTable(records), a) == Share(|FramesWith(records, a)|, |records|)
  {
    FramesWithPresent(records, a);
    if a in ActionSet(records) {
      assert StatsTable(records)[a] == StatsOf(records, a);
    } else {
      assert a !in StatsTable(records);
    }
  }

  lemma SharesAdd(w: nat, r: nat, n: nat)
    requires n > 0
    ensures Share(w, n) + Share(r, n) == Share(w + r, n)
  {
  }
}

=== FILE: common.dfy ===
/** Small shared vocabulary: optional values, points and the real-number
    reductions (sum, mean, min, max) the numeric code relies on. */
module Common {

  /** Conventional optional value; `GetOr` plays the role of a dictionary
      lookup with a default. */
  datatype Option<+T> = None | Some(value: T) {
    function GetOr(default: T): T {
      match this
      case Some(v) => v
      case None => default
    }
  }

  /** A 2-D point (a keypoint, or a difference of two keypoints). */
  datatype Point = Point(x: real, y: real)

  function Abs(x: real): real {
    if x < 0.0 then -x else x
  }

  /** Sum of a sequence of reals, folded from the left. */
  function Sum(xs: seq<real>): real
    decreases |xs|
  {
    if xs == [] then 0.0 else Sum(xs[..|xs| - 1]) + xs[|xs| - 1]
  }

  /** Arithmetic mean of a non-empty sequence. */
  function Mean(xs: seq<real>): real
    requires |xs| > 0
  {
    Sum(xs) / |xs| as real
  }

  function SeqMin(xs: seq<real>): (m: real)
    requires |xs| > 0
    ensures m in xs
    ensures forall i :: 0 <= i < |xs| ==> m <= xs[i]
    decreases |xs|
  {
    if |xs| == 1 then xs[0]
    else
      var m := SeqMin(xs[..|xs| - 1]);
      if xs[|xs| - 1] < m then xs[|xs| - 1] else m
  }

  function SeqMax(xs: seq<real>): (m: real)
    requires |xs| > 0
    ensures m in xs
    ensures forall i :: 0 <= i < |xs| ==> xs[i] <= m
    decreases |xs|
  {
    if |xs| == 1 then xs[0]
    else
      var m := SeqMax(xs[..|xs| - 1]);
      if xs[|xs| - 1] > m then xs[|xs| - 1] else m
  }

  /** Every element lies in [lo, hi], so the sum lies in [n*lo, n*hi]. */
  lemma {:induction false} SumBounds(xs: seq<real>, lo: real, hi: real)
    requires forall i :: 0 <= i < |xs| ==> lo <= xs[i] <= hi
    ensures |xs| as real * lo <= Sum(xs) <= |xs| as real * hi
    decreases |xs|
  {
    if xs != [] {
      SumBounds(xs[..|xs| - 1], lo, hi);
    }
  }

  /** Dividing the bounds n*lo <= s <= n*hi by a positive n. */
  lemma DivideBounds(s: real, n: real, lo: real, hi: real)
    requires n > 0.0 && n * lo <= s <= n * hi
    ensures lo <= s / n <= hi
  {
    var q := s / n;
    assert q * n == s;
    assert n * (q - lo) >= 0.0;
    assert n * (hi - q) >= 0.0;
  }

  /** Every element lies in [lo, hi], so the mean does too. */
  lemma MeanBounds(xs: seq<real>, lo: real, hi: real)
    requires |xs| > 0
    requires forall i :: 0 <= i < |xs| ==> lo <= xs[i] <= hi
    ensures lo <= Mean(xs) <= hi
  {
    SumBounds(xs, lo, hi);
    DivideBounds(Sum(xs), |xs| as real, lo, hi);
  }

  /** The mean of a non-empty sequence lies between its minimum and maximum. */
  lemma MeanBetweenMinAndMax(xs: seq<real>)
    requires |xs| > 0
    ensures SeqMin(xs) <= Mean(xs) <= SeqMax(xs)
  {
    MeanBounds(xs, SeqMin(xs), SeqMax(xs));
  }
}

=== FILE: feature_extraction.dfy ===
/** Per-frame feature extraction: static features of one normalised detection,
    and motion features computed over a bounded first-in-first-out window of
    past detections held by a `FeatureExtractor` object. */
module FeatureExtraction {
  import opened Common

  type NonNegReal = r: real | r >= 0.0

  /** The two numeric library primitives the extractor uses and the model
      leaves uninterpreted: the square root (inside Euclidean norms and the
      standard deviation) and arccos expressed in degrees. */
  datatype Numerics = Numerics(sqrt: real -> NonNegReal, arccosDegrees: real -> real)

  /** A bounding box normalised by the image size: centre, width, height. */
  datatype BBox = BBox(cx: real, cy: real, w: real, h: real)

  /** One detection after normalisation: the keypoints relative to their own
      box, and the box relative to the image. */
  datatype Detection = Detection(kpts: seq<Point>, bbox: BBox)

  /** The pose model reports a fixed number of anatomical keypoints. */
  const KeypointCount: nat := 24

  predicate WellFormed(d: Detection) {
    |d.kpts| == KeypointCount
  }

  predicate AllWellFormed(buf: seq<Detection>) {
    forall i :: 0 <= i < |buf| ==> WellFormed(buf[i])
  }

  /** The feature mapping of one frame. Static features are always present;
      each motion feature is `None` while the extractor has not set it, which
      is how the downstream `.get(key, 0)` lookups see a missing key. */
  datatype Features = Features(
    frontLeftLegAngle: real,
    frontRightLegAngle: real,
    rearLeftLegAngle: real,
    rearRightLegAngle: real,
    tailAngle: real,
    pawDistanceFront: real,
    pawDistanceRear: real,
    bodyLength: real,
    headWidth: real,
    bboxWidth: real,
    bboxHeight: real,
    avgVelocity: Option<real>,
    tailAngleVariance: Option<real>,
    tailOscillationCount: Option<int>,
    centroidVerticalVelocity: Option<real>,
    frontPawsVerticalVelocity: Option<real>,
    rearPawsVerticalVelocity: Option<real>,
    bboxCenterVariance: Option<real>,
    legAngleVariance: Option<real>,
    legAngleChangeRate: Option<real>)

  // ---------------------------------------------------------------------
  // Geometry

  const AngleEpsilon: real := 0.000001

  function Sub(a: Point, b: Point): Point {
    Point(a.x - b.x, a.y - b.y)
  }

  function Norm(num: Numerics, p: Point): NonNegReal {
    num.sqrt(p.x * p.x + p.y * p.y)
  }

  function Clip(x: real, lo: real, hi: real): real {
    if x < lo then lo else if x > hi then hi else x
  }

  /** Cosine of the angle at vertex `b` between `a` and `c`, with an epsilon
      in the denominator and clipped to [-1, 1] before arccos sees it. */
  function CosineAt(num: Numerics, a: Point, b: Point, c: Point): (cos: real)
    ensures -1.0 <= cos <= 1.0
  {
    var ba := Sub(a, b);
    var bc := Sub(c, b);
    var n1, n2 := Norm(num, ba), Norm(num, bc);
    assert n1 * n2 >= 0.0;
    Clip((ba.x * bc.x + ba.y * bc.y) / (n1 * n2 + AngleEpsilon), -1.0, 1.0)
  }

  /** Angle in degrees at vertex `b` formed by `a` and `c`. */
  function Angle(num: Numerics, a: Point, b: Point, c: Point): real {
    num.arccosDegrees(CosineAt(num, a, b, c))
  }

  /** The four leg angles, in the order front-left, front-right, rear-left,
      rear-right (paw, knee and hip keypoints of each limb). */
  function LegAngles(num: Numerics, k: seq<Point>): (legs: seq<real>)
    requires |k| == KeypointCount
    ensures |legs| == 4
  {
    [Angle(num, k[0], k[1], k[2]), Angle(num, k[6], k[7], k[8]),
     Angle(num, k[3], k[4], k[5]), Angle(num, k[9], k[10], k[11])]
  }

  /** Tail angle at the tail start, between the tail end and the withers. */
  function TailAngle(num: Numerics, k: seq<Point>): real
    requires |k| == KeypointCount
  {
    Angle(num, k[13], k[12], k[22])
  }

  /** Static (single-frame) features; no motion key is set yet. */
  function StaticFeatures(num: Numerics, d: Detection): (f: Features)
    requires WellFormed(d)
    ensures f.bboxWidth == d.bbox.w && f.bboxHeight == d.bbox.h
    ensures f.avgVelocity.None? && f.tailAngleVariance.None? && f.tailOscillationCount.None?
    ensures f.centroidVerticalVelocity.None? && f.frontPawsVerticalVelocity.None?
    ensures f.rearPawsVerticalVelocity.None? && f.bboxCenterVariance.None?
    ensures f.legAngleVariance.None? && f.legAngleChangeRate.None?
  {
    var k := d.kpts;
    var legs := LegAngles(num, k);
    Features(
      legs[0], legs[1], legs[2], legs[3],
      TailAngle(num, k),
      Norm(num, Sub(k[0], k[6])),
      Norm(num, Sub(k[3], k[9])),
      Norm(num, Sub(k[22], k[13])),
      Norm(num, Sub(k[20], k[21])),
      d.bbox.w, d.bbox.h,
      None, None, None, None, None, None, None, None, None)
  }

  // ---------------------------------------------------------------------
  // Motion features over the window

  /** The motion features computed once the window holds two frames. */
  datatype Motion = Motion(
    avgVelocity: real,
    tailAngleStd: real,
    tailOscillationCount: int,
    centroidVerticalVelocity: real,
    frontPawsVerticalVelocity: real,
    rearPawsVerticalVelocity: real,
    bboxCenterVariance: real,
    legAngleVariance: real,
    legAngleChangeRate: real)

  /** Consecutive differences `xs[i+1] - xs[i]`. */
  function Diffs(xs: seq<real>): (ds: seq<real>)
    requires |xs| > 0
    ensures |ds| == |xs| - 1
  {
    seq(|xs| - 1, i requires 0 <= i < |xs| - 1 => xs[i + 1] - xs[i])
  }

  /** Population variance (mean squared deviation from the mean). */
  function Variance(xs: seq<real>): real
    requires |xs| > 0
  {
    var m := Mean(xs);
    Mean(seq(|xs|, i requires 0 <= i < |xs| => (xs[i] - m) * (xs[i] - m)))
  }

  function TailAngles(num: Numerics, buf: seq<Detection>): (s: seq<real>)
    requires AllWellFormed(buf)
    ensures |s| == |buf|
  {
    seq(|buf|, i requires 0 <= i < |buf| => TailAngle(num, buf[i].kpts))
  }

  function LegAngleRows(num: Numerics, buf: seq<Detection>): (rows: seq<seq<real>>)
    requires AllWellFormed(buf)
    ensures |rows| == |buf| && forall i :: 0 <= i < |rows| ==> |rows[i]| == 4
  {
    seq(|buf|, i requires 0 <= i < |buf| => LegAngles(num, buf[i].kpts))
  }

  predicate Rows4(rows: seq<seq<real>>) {
    forall i :: 0 <= i < |rows| ==> |rows[i]| == 4
  }

  function Column(rows: seq<seq<real>>, j: nat): (col: seq<real>)
    requires Rows4(rows) && j < 4
    ensures |col| == |rows|
  {
    seq(|rows|, i requires 0 <= i < |rows| => rows[i][j])
  }

  function CentroidXs(buf: seq<Detection>): (s: seq<real>)
    ensures |s| == |buf|
  {
    seq(|buf|, i requires 0 <= i < |buf| => buf[i].bbox.cx)
  }

  function CentroidYs(buf: seq<Detection>): (s: seq<real>)
    ensures |s| == |buf|
  {
    seq(|buf|, i requires 0 <= i < |buf| => buf[i].bbox.cy)
  }

  /** Mean y of the two front paws (keypoints 0 and 6) in each frame. */
  function FrontPawYs(buf: seq<Detection>): (s: seq<real>)
    requires AllWellFormed(buf)
    ensures |s| == |buf|
  {
    seq(|buf|, i requires 0 <= i < |buf| => (buf[i].kpts[0].y + buf[i].kpts[6].y) / 2.0)
  }

  /** Mean y of the two rear paws (keypoints 3 and 9) in each frame. */
  function RearPawYs(buf: seq<Detection>): (s: seq<real>)
    requires AllWellFormed(buf)
    ensures |s| == |buf|
  {
    seq(|buf|, i requires 0 <= i < |buf| => (buf[i].kpts[3].y + buf[i].kpts[9].y) / 2.0)
  }

  /** Displacement of every keypoint between two consecutive frames. */
  function StepDistances(num: Numerics, prev: Detection, next: Detection): (ds: seq<real>)
    requires WellFormed(prev) && WellFormed(next)
    ensures |ds| == KeypointCount
  {
    seq(KeypointCount, k requires 0 <= k < KeypointCount => Norm(num, Sub(next.kpts[k], prev.kpts[k])))
  }

  /** Mean step of the box centre's y over the window. */
  function CentroidVerticalVelocity(buf: seq<Detection>): real
    requires |buf| >= 2
  {
    Mean(Diffs(CentroidYs(buf)))
  }

  /** Mean step of the front paws' mean y over the window. */
  function FrontPawsVerticalVelocity(buf: seq<Detection>): real
    requires |buf| >= 2 && AllWellFormed(buf)
  {
    Mean(Diffs(FrontPawYs(buf)))
  }

  /** Mean step of the rear paws' mean y over the window. */
  function RearPawsVerticalVelocity(buf: seq<Detection>): real
    requires |buf| >= 2 && AllWellFormed(buf)
  {
    Mean(Diffs(RearPawYs(buf)))
  }

  /** Mean keypoint displacement over all T-1 transitions and 24 keypoints. */
  function AvgVelocity(num: Numerics, buf: seq<Detection>): real
    requires |buf| >= 2 && AllWellFormed(buf)
  {
    var perStep := seq(|buf| - 1, t requires 0 <= t < |buf| - 1 => Sum(StepDistances(num, buf[t], buf[t + 1])));
    Sum(perStep) / ((|buf| - 1) * KeypointCount) as real
  }

  /** Mean absolute change of a leg angle over all T-1 transitions and 4 legs. */
  function LegChangeRate(rows: seq<seq<real>>): real
    requires |rows| >= 2 && Rows4(rows)
  {
    var perStep := seq(|rows| - 1, t requires 0 <= t < |rows| - 1 =>
      Sum(seq(4, l requires 0 <= l < 4 => Abs(rows[t + 1][l] - rows[t][l]))));
    Sum(perStep) / ((|rows| - 1) * 4) as real
  }

  /** Motion features of a window of at least two frames, each computed over
      the whole window. */
  function MotionOf(num: Numerics, buf: seq<Detection>): Motion
    requires |buf| >= 2 && AllWellFormed(buf)
  {
    var tail := TailAngles(num, buf);
    MotionFrom(num, buf, tail, LegAngleRows(num, buf), ExtremaCount(tail))
  }

  /** The motion features given the per-frame tail angles, leg-angle rows and
      tail oscillation count of the window. */
  function MotionFrom(num: Numerics, buf: seq<Detection>, tail: seq<real>, legs: seq<seq<real>>,
                      oscillations: int): Motion
    requires |buf| >= 2 && AllWellFormed(buf) && |tail| == |buf| && |legs| == |buf| && Rows4(legs)
  {
    var centroidYs := CentroidYs(buf);
    Motion(
      AvgVelocity(num, buf),
      num.sqrt(Variance(tail)),
      oscillations,
      CentroidVerticalVelocity(buf),
      FrontPawsVerticalVelocity(buf),
      RearPawsVerticalVelocity(buf),
      (Variance(CentroidXs(buf)) + Variance(centroidYs)) / 2.0,
      (Variance(Column(legs, 0)) + Variance(Column(legs, 1))
        + Variance(Column(legs, 2)) + Variance(Column(legs, 3))) / 4.0,
      LegChangeRate(legs))
  }

  /** Writes every motion key into the feature mapping. */
  function WithMotion(f: Features, m: Motion): Features {
    f.(avgVelocity := Some(m.avgVelocity),
       tailAngleVariance := Some(m.tailAngleStd),
       tailOscillationCount := Some(m.tailOscillationCount),
       centroidVerticalVelocity := Some(m.centroidVerticalVelocity),
       frontPawsVerticalVelocity := Some(m.frontPawsVerticalVelocity),
       rearPawsVerticalVelocity := Some(m.rearPawsVerticalVelocity),
       bboxCenterVariance := Some(m.bboxCenterVariance),
       legAngleVariance := Some(m.legAngleVariance),
       legAngleChangeRate := Some(m.legAngleChangeRate))
  }

  /** The defaults written while fewer than two frames are buffered: only
      these four keys; the others stay unset. */
  function ZeroFill(f: Features): Features {
    f.(avgVelocity := Some(0.0),
       tailAngleVariance := Some(0.0),
       centroidVerticalVelocity := Some(0.0),
       frontPawsVerticalVelocity := Some(0.0))
  }

  /** The feature mapping returned for detection `d` once the window is `buf`. */
  function FrameFeatures(num: Numerics, d: Detection, buf: seq<Detection>): Features
    requires WellFormed(d) && AllWellFormed(buf)
  {
    if |buf| >= 2 then WithMotion(StaticFeatures(num, d), MotionOf(num, buf))
    else ZeroFill(StaticFeatures(num, d))
  }

  lemma FrameFeaturesKeys(num: Numerics, d: Detection, buf: seq<Detection>)
    requires WellFormed(d) && AllWellFormed(buf)
    ensures var f := FrameFeatures(num, d, buf);
      |buf| < 2 ==>
        && f.avgVelocity == Some(0.0) && f.tailAngleVariance == Some(0.0)
        && f.centroidVerticalVelocity == Some(0.0) && f.frontPawsVerticalVelocity == Some(0.0)
        && f.tailOscillationCount.None? && f.legAngleVariance.None?
        && f.rearPawsVerticalVelocity.None? && f.bboxCenterVariance.None?
        && f.legAngleChangeRate.None?
    ensures var f := FrameFeatures(num, d, buf);
      |buf| >= 2 ==>
        && f.avgVelocity.Some? && f.tailAngleVariance.Some? && f.tailOscillationCount.Some?
        && f.centroidVerticalVelocity.Some? && f.frontPawsVerticalVelocity.Some?
        && f.rearPawsVerticalVelocity.Some? && f.bboxCenterVariance.Some?
        && f.legAngleVariance.Some? && f.legAngleChangeRate.Some?
  {
  }

  // ---------------------------------------------------------------------
  // Mean of consecutive differences telescopes

  lemma {:induction false} SumDiffsTelescopes(xs: seq<real>)
    requires |xs| > 0
    ensures Sum(Diffs(xs)) == xs[|xs| - 1] - xs[0]
    decreases |xs|
  {
    if |xs| > 1 {
      var init := xs[..|xs| - 1];
      SumDiffsTelescopes(init);
      assert Diffs(xs)[..|xs| - 2] == Diffs(init);
    }
  }

  /** The mean of the T-1 consecutive differences is (last - first) / (T-1). */
  lemma MeanDiffsTelescopes(xs: seq<real>)
    requires |xs| >= 2
    ensures Mean(Diffs(xs)) == (xs[|xs| - 1] - xs[0]) / (|xs| - 1) as real
  {
    SumDiffsTelescopes(xs);
  }

  /** The centroid vertical velocity depends only on the oldest and the
      newest buffered frame. */
  lemma CentroidVelocityTelescopes(buf: seq<Detection>)
    requires |buf| >= 2
    ensures CentroidVerticalVelocity(buf)
         == (buf[|buf| - 1].bbox.cy - buf[0].bbox.cy) / (|buf| - 1) as real
  {
    MeanDiffsTelescopes(CentroidYs(buf));
  }

  /** So does the front paw vertical velocity (mean y of keypoints 0 and 6). */
  lemma FrontPawVelocityTelescopes(buf: seq<Detection>)
    requires |buf| >= 2 && AllWellFormed(buf)
    ensures FrontPawsVerticalVelocity(buf)
         == (FrontPawYs(buf)[|buf| - 1] - FrontPawYs(buf)[0]) / (|buf| - 1) as real
  {
    MeanDiffsTelescopes(FrontPawYs(buf));
  }

  /** And the rear paw vertical velocity (mean y of keypoints 3 and 9). */
  lemma RearPawVelocityTelescopes(buf: seq<Detection>)
    requires |buf| >= 2 && AllWellFormed(buf)
    ensures RearPawsVerticalVelocity(buf)
         == (RearPawYs(buf)[|buf| - 1] - RearPawYs(buf)[0]) / (|buf| - 1) as real
  {
    MeanDiffsTelescopes(RearPawYs(buf));
  }

  // ---------------------------------------------------------------------
  // Local extrema

  /** Index `i` is a strict peak or a strict trough of `v`. */
  predicate IsExtremum(v: seq<real>, i: int)
    requires 1 <= i < |v| - 1
  {
    (v[i] > v[i - 1] && v[i] > v[i + 1]) || (v[i] < v[i - 1] && v[i] < v[i + 1])
  }

  /** Number of extrema among the interior indices 1 .. hi-1. */
  function ExtremaBelow(v: seq<real>, hi: int): nat
    requires hi <= |v| - 1
    decreases hi
  {
    if hi <= 1 then 0 else ExtremaBelow(v, hi - 1) + (if IsExtremum(v, hi - 1) then 1 else 0)
  }

  /** Number of strict local extrema of `v` (0 for fewer than three values). */
  function ExtremaCount(v: seq<real>): nat {
    if |v| < 3 then 0 else ExtremaBelow(v, |v| - 1)
  }

  lemma {:induction false} ExtremaBelowBound(v: seq<real>, hi: int)
    requires hi <= |v| - 1
    ensures ExtremaBelow(v, hi) <= if hi <= 1 then 0 else hi - 1
    decreases hi
  {
    if hi > 1 {
      ExtremaBelowBound(v, hi - 1);
    }
  }

  /** The count lies in [0, n-2]. */
  lemma ExtremaCountBounds(v: seq<real>)
    ensures |v| < 3 ==> ExtremaCount(v) == 0
    ensures |v| >= 3 ==> ExtremaCount(v) <= |v| - 2
  {
    if |v| >= 3 {
      ExtremaBelowBound(v, |v| - 1);
    }
  }

  lemma {:induction false} ExtremaBelowFlat(v: seq<real>, hi: int)
    requires hi <= |v| - 1
    requires forall i :: 1 <= i < |v| - 1 ==> v[i] == v[i - 1] || v[i] == v[i + 1]
    ensures ExtremaBelow(v, hi) == 0
    decreases hi
  {
    if hi > 1 {
      ExtremaBelowFlat(v, hi - 1);
    }
  }

  /** An index equal to one of its neighbours is no extremum, so a sequence
      in which every interior value touches a plateau (a constant sequence in
      particular) has no extrema. */
  lemma PlateausHaveNoExtrema(v: seq<real>)
    requires forall i :: 1 <= i < |v| - 1 ==> v[i] == v[i - 1] || v[i] == v[i + 1]
    ensures ExtremaCount(v) == 0
  {
    if |v| >= 3 {
      ExtremaBelowFlat(v, |v| - 1);
    }
  }

  // ---------------------------------------------------------------------
  // The window

  /** Largest number of entries a window of the given size keeps. */
  function Capacity(windowSize: int): nat {
    if windowSize < 0 then 0 else windowSize
  }

  /** Append the new entry, then drop the front one if the window overflowed. */
  function Slide(buf: seq<Detection>, d: Detection, windowSize: int): seq<Detection> {
    var b := buf + [d];
    if |b| > windowSize then b[1..] else b
  }

  /** Window contents after feeding `entries` one by one into an empty window. */
  function Replay(entries: seq<Detection>, windowSize: int): seq<Detection>
    decreases |entries|
  {
    if entries == [] then []
    else Slide(Replay(entries[..|entries| - 1], windowSize), entries[|entries| - 1], windowSize)
  }

  function Min(a: int, b: int): int {
    if a < b then a else b
  }

  /** After n entries the window holds the last min(n, W) of them, in order. */
  lemma {:induction false} ReplayKeepsLast(entries: seq<Detection>, windowSize: int)
    ensures Replay(entries, windowSize)
         == entries[|entries| - Min(|entries|, Capacity(windowSize))..]
    decreases |entries|
  {
    if entries != [] {
      var n := |entries|;
      var init := entries[..n - 1];
      ReplayKeepsLast(init, windowSize);
      var c := Capacity(windowSize);
      var prev := Replay(init, windowSize);
      assert prev == init[n - 1 - Min(n - 1, c)..];
      assert prev + [entries[n - 1]] == entries[n - 1 - Min(n - 1, c)..];
    }
  }

  /** Sliding never grows the window beyond its capacity and keeps the newest
      entry last. */
  lemma SlideBounded(buf: seq<Detection>, d: Detection, windowSize: int)
    requires |buf| <= Capacity(windowSize)
    ensures var b := Slide(buf, d, windowSize);
      |b| <= Capacity(windowSize) && |b| >= 0 && (windowSize >= 1 ==> b != [] && b[|b| - 1] == d)
  {
  }

  // ---------------------------------------------------------------------
  // The extractor object

  class FeatureExtractor {
    const windowSize: int
    const num: Numerics
    var historyBuffer: seq<Detection>

    ghost predicate Valid()
      reads this
    {
      |historyBuffer| <= Capacity(windowSize) && AllWellFormed(historyBuffer)
    }

    constructor (windowSize: int, num: Numerics)
      ensures Valid()
      ensures this.windowSize == windowSize && this.num == num && historyBuffer == []
    {
      this.windowSize := windowSize;
      this.num := num;
      historyBuffer := [];
    }

    /** Processes one frame. No detection: returns (None, None) and leaves
        the window alone. Otherwise slides the detection into the window and
        returns its features and keypoints. */
    method Update(det: Option<Detection>) returns (features: Option<Features>, kpts: Option<seq<Point>>)
      requires Valid()
      requires det.Some? ==> WellFormed(det.value)
      modifies this
      ensures Valid()
      ensures det.None? ==> features.None? && kpts.None? && historyBuffer == old(historyBuffer)
      ensures det.Some? ==>
        && historyBuffer == Slide(old(historyBuffer), det.value, windowSize)
        && kpts == Some(det.value.kpts)
        && features == Some(FrameFeatures(num, det.value, historyBuffer))
    {
      if det.None? {
        return None, None;
      }
      var d := det.value;
      var f := StaticFeatures(num, d);
      historyBuffer := historyBuffer + [d];
      if |historyBuffer| > windowSize {
        historyBuffer := historyBuffer[1..];
      }
      assert historyBuffer == Slide(old(historyBuffer), d, windowSize);
      assert AllWellFormed(historyBuffer);
      if |historyBuffer| >= 2 {
        f := ComputeMotionFeatures(f);
      } else {
        f := ZeroFill(f);
      }
      assert f == FrameFeatures(num, d, historyBuffer);
      return Some(f), Some(d.kpts);
    }

    /** Fills in every motion key from the whole window, recomputing the tail
        and leg angles of each buffered frame. */
    method ComputeMotionFeatures(f: Features) returns (r: Features)
      requires Valid() && |historyBuffer| >= 2
      ensures r == WithMotion(f, MotionOf(num, historyBuffer))
    {
      var buf := historyBuffer;
      var tailAngles := TailAngleSeries(num, buf);
      var oscillations := CountPeaks(tailAngles);
      var legRows := LegAngleSeries(num, buf);
      r := WithMotion(f, MotionFrom(num, buf, tailAngles, legRows, oscillations));
    }

    /** The tail angle of every buffered frame, oldest first. */
    static method TailAngleSeries(num: Numerics, buf: seq<Detection>) returns (tailAngles: seq<real>)
      requires AllWellFormed(buf)
      ensures tailAngles == TailAngles(num, buf)
    {
      tailAngles := [];
      for i := 0 to |buf|
        invariant |tailAngles| == i
        invariant forall j :: 0 <= j < i ==> tailAngles[j] == TailAngle(num, buf[j].kpts)
      {
        tailAngles := tailAngles + [TailAngle(num, buf[i].kpts)];
      }
    }

    /** The four leg angles of every buffered frame, oldest first. */
    static method LegAngleSeries(num: Numerics, buf: seq<Detection>) returns (legRows: seq<seq<real>>)
      requires AllWellFormed(buf)
      ensures legRows == LegAngleRows(num, buf)
    {
      legRows := [];
      for i := 0 to |buf|
        invariant |legRows| == i
        invariant forall j :: 0 <= j < i ==> legRows[j] == LegAngles(num, buf[j].kpts)
      {
        legRows := legRows + [LegAngles(num, buf[i].kpts)];
      }
    }

    /** Counts strict local maxima and minima of `values`. */
    static method CountPeaks(values: seq<real>) returns (peaks: nat)
      ensures peaks == ExtremaCount(values)
      ensures |values| < 3 ==> peaks == 0
    {
      if |values| < 3 {
        return 0;
      }
      peaks := 0;
      var i := 1;
      while i < |values| - 1
        invariant 1 <= i <= |values| - 1
        invariant peaks == ExtremaBelow(values, i)
      {
        if values[i] > values[i - 1] && values[i] > values[i + 1] {
          peaks := peaks + 1;
        } else if values[i] < values[i - 1] && values[i] < values[i + 1] {
          peaks := peaks + 1;
        }
        i := i + 1;
      }
    }
  }
}
